=== FILE: README.md ===
# xmcd2cs translator core in Dafny

A model of the translator in `xmcd2cs/Parser.cs`. The translator reads a Mathcad
worksheet as an XML tree and writes a C# compilation unit. `Parse` writes a
fixed header, a class named after the file, one member per recognised
worksheet statement, and a footer. `TraverseElements` walks every element below
the root in document order. It hands definitions (`define`, `globalDefine`),
evaluations (`eval`) and the `apply` directly under `ws:math` to their
translators, and records the local name of every other math node as "to
implement". The statement translators build C# text from the operator
translator `ParseApply` and the value translator `GetValue`. `ParseApply`
also holds the textual rewrite of Mathcad's `if(c, t, e)` into a C# ternary:
commas inside `Math.Pow(…)` and `[…]` are hidden, the sequence is split at the
remaining commas, and the hidden commas are put back.

Modules, following the structure of the source:

- `Results`: `Result<T>` (`Ok`/`Fail`) and `Option<T>`.
- `Strings`: searches (`IndexOf`), `Split`, `Join`, decimal spelling and parsing.
- `Xml`: the element tree (`Node`) and the three namespaces.
- `Translator`: `GetValue`, `ParseApply` (split into its three-child and
  two-child halves), `ParseParens`, `ParseSequence`.
- `Conditional`: the `if` rewrite, lines 314-377.
- `ConditionalProofs` and `RewriteProofs`: the `if` rewrite undoes its own
  substitution, and the rewrite equals the ternary of the three
  top-level items.
- `Statements`: `ParseDefinition`, `ParseEval`, `ParseFunction`, `ParseRange`,
  `ParseUnitOverride`, `ParseResult`, `ParseMatrix`, `ParseProgram`, `ParseIfThen`.
- `Walker`: `TraverseElements` and the framing done by `Parse`.
- `TranslatorProperties`, `StatementsProperties`, `WalkerProperties`: the
  properties of the three layers.

How the model stands for the source:

- Every translator is a pure function returning `Result`.
- A translator that appends to a `StringBuilder` returns the strings it
  appends, one per `AppendLine`.
- A nested builder's text (a matrix, a program) is `Block` of its lines.
  `Block` puts a `"\n"` after each line.
- `ToImplement` is the `unimplemented` set of a `Walk`.
- The file name becomes the class-name parameter of `Walker.Translate`.

Failure policy: every `Debug.Fail` / `Debug.Assert` of the source is an abort
(`Fail(reason)` carrying the source's message). So is every runtime
exception the code can raise on malformed input:

- an index of -1 into a char array;
- `i % rows` with zero rows;
- `.Value` of a missing element;
- `int.Parse` of a non-number.

A failure anywhere aborts the whole translation. The walk stops at the
first failing element, and its reason is the result.

## Model

| member | source | states |
|---|---|---|
| Xml.FirstChildNamed | xmcd2cs/Parser.cs:650-651 | `Element(name)` returns the first child with that name, no child before it having the name, or reports that no child has it |
| Xml.DescendantsFromMembers | xmcd2cs/Parser.cs:226-227 | `Descendants()` holds exactly the children and everything below them |
| Xml.HasImagByChildren | xmcd2cs/Parser.cs:226-228 | an element has an imaginary literal among its descendants exactly when one of its children is one or has one below it |
| Translator.ResolveIdentifier | xmcd2cs/Parser.cs:427-438 | `π`, `ln`, `log` become `Math.PI`, `Math.Log`, `Math.Log10`; every other name is unchanged |
| Translator.GetValue | xmcd2cs/Parser.cs:409-462 | succeeds only for the value kinds, any other node being "Unknown value!"; a number is its text, an identifier its resolved name, and an imaginary literal its text followed by `i` |
| Translator.ParseApply | xmcd2cs/Parser.cs:163-167 | an empty apply is the empty fragment; a child count other than 0, 2 or 3 is "Unknown apply"; a translated 3-child apply has one of the accepted operator heads |
| Translator.ParseParens | xmcd2cs/Parser.cs:509-530 | a translated group has exactly one child, an apply, real or id |
| Translator.ParseSequence | xmcd2cs/Parser.cs:672-699 | a translated sequence holds only real, id and apply items |
| Conditional.Substitute | xmcd2cs/Parser.cs:316-343 | hiding only turns commas into semicolons, and keeps the length |
| Conditional.Restore | xmcd2cs/Parser.cs:349-376 | restoring only turns semicolons into commas, and keeps the length |
| Conditional.IfRewrite | xmcd2cs/Parser.cs:314-377 | the rewrite succeeds only when the hidden sequence splits into exactly three items |
| ConditionalProofs.SubstituteIsToggle | xmcd2cs/Parser.cs:316-376 | both passes together equal one toggle over a list of windows. Each `Math.Pow` opens a window to the end of the text, and each `[` with a later `]` opens a window up to it. The first separator in each window is swapped, in order. A `Math.Pow` window with no separator fails. This holds for hiding and for restoring alike |
| ConditionalProofs.RestoreSubstitute | xmcd2cs/Parser.cs:316-376 | for a fragment without semicolons, restoring undoes hiding: `Restore(Substitute(s)) == Ok(s)` |
| RewriteProofs.RestoreSplice | xmcd2cs/Parser.cs:349-376 | take a piece of text without `;`, brackets or `Math.Pow` letters and replace it by another such piece, both pieces non-empty unless they sit at the start or the end of the text: the restore of the text around it does not change, and a failure stays the same failure |
| RewriteProofs.IfRewriteIsTernary | xmcd2cs/Parser.cs:314-377 | for a fragment without `;`, the rewrite succeeds iff the hidden sequence has exactly three top-level items; it is then the ternary of the original text cut at the two top-level commas, with the commas inside `Math.Pow` and brackets kept |
| RewriteProofs.IfOfPlainParts | xmcd2cs/Parser.cs:345-347 | for plain items, `if(c, t, e)` becomes `(c ? ( t) :  e)`; the blanks from the `", "` join are kept |
| TranslatorProperties.ThreeChildAccepted | xmcd2cs/Parser.cs:167-261 | a 3-child apply succeeds iff its head is an accepted operator and both operands have a value; any other head is "Unknown apply three elements" |
| TranslatorProperties.InfixInOrder | xmcd2cs/Parser.cs:169-238 | an infix operator writes `(a op b)` with the operands in input order and the C# symbol of the operator |
| TranslatorProperties.ComplexHeuristic | xmcd2cs/Parser.cs:224-238 | a `plus` is written as `new Complex(…)` iff exactly one of two apply operands holds an imaginary literal; that operand goes second |
| TranslatorProperties.PowerForms | xmcd2cs/Parser.cs:240-257 | `nthRoot` swaps its operands into `Math.Pow(b, 1.0 / a)`; `pow` and `indexer` keep their order |
| TranslatorProperties.ResolveOnlyKnown | xmcd2cs/Parser.cs:427-438 | a name changes iff it is one of the three known spellings |
| TranslatorProperties.SubscriptedKept | xmcd2cs/Parser.cs:417-438 | a subscripted identifier is `name_sub` and is never substituted |
| TranslatorProperties.LogOfE | xmcd2cs/Parser.cs:265-274 | `log(e)` calls `Math.Log10` on `Math.E` |
| TranslatorProperties.TwoChildRejected | xmcd2cs/Parser.cs:263-394 | a 2-child apply of any (operator, operand) shape outside the eleven accepted ones is "Unknown apply two elements" |
| TranslatorProperties.OneOperandForms | xmcd2cs/Parser.cs:297-304 | `neg`, `sqrt`, `Find` and `vectorSum` applied to an identifier give their C# forms around its value |
| TranslatorProperties.OneOperandOfApply | xmcd2cs/Parser.cs:287-309 | `sqrt`, `absval` and `neg` applied to an apply give `(Math.Sqrt(x))`, `(Math.Abs(x))` and `(-1.0 * (x))` around its fragment, and its failure is theirs |
| TranslatorProperties.CallForms | xmcd2cs/Parser.cs:265-380 | an identifier applied to an identifier (other than `log` of `e`), a number, an apply, or a sequence (other than under `if`) is the call `(f(x))` of the operand's fragment; a failing operand fails the call |
| TranslatorProperties.ParensTransparent | xmcd2cs/Parser.cs:509-530 | a group adds no parentheses: its fragment is its child's value |
| TranslatorProperties.SequenceJoins | xmcd2cs/Parser.cs:672-699 | a sequence lists its items' fragments one for one, in order |
| TranslatorProperties.SequenceIsJoin | xmcd2cs/Parser.cs:672-699 | a translated sequence is its items' fragments joined with `", "`; an item that does not translate makes the sequence fail with that item's reason |
| TranslatorProperties.ValueDelegates | xmcd2cs/Parser.cs:440-455 | the value of an apply, a group or a sequence is exactly what `ParseApply`, `ParseParens` or `ParseSequence` makes of it |
| TranslatorProperties.IfOfSequence | xmcd2cs/Parser.cs:310-378 | `if` applied to a sequence is the `if` rewrite of the sequence's fragment, or the sequence's failure when it does not translate; for a fragment without `;` a successful rewrite is the ternary of the fragment cut at its two top-level commas |
| Statements.ParseFunction | xmcd2cs/Parser.cs:464-487 | a signature is built only for `function(id, boundVars)`; any other shape is "Unknown function" |
| Statements.ParseRange | xmcd2cs/Parser.cs:489-507 | a translated range is `range(real, parens)` or `range(real, id)` |
| Statements.ParseUnitOverride | xmcd2cs/Parser.cs:572-590 | a translated unit override has one apply or id child |
| Statements.ParseResult | xmcd2cs/Parser.cs:592-622 | a translated result has one united value, real or matrix child |
| Statements.Dimension | xmcd2cs/Parser.cs:626-637 | an absent size is 0; a present one is read iff it is a decimal number, and then it is the number the digits spell; otherwise the format failure |
| Statements.ParseMatrix | xmcd2cs/Parser.cs:624-670 | a translated matrix is one construction line plus one line per child |
| Statements.MatrixCell | xmcd2cs/Parser.cs:641-648 | a cell line needs a positive row count and a known cell kind, and assigns to the target of its own index |
| StatementsProperties.MatrixCellValue | xmcd2cs/Parser.cs:643-661 | a number cell assigns its text; an apply or group cell assigns its fragment, and its failure is the cell's |
| StatementsProperties.MatrixComplexCell | xmcd2cs/Parser.cs:648-653 | a complex cell assigns `new Complex(re, im)` from the texts of its first `real` and first `imag` children, and fails iff one is missing |
| Statements.ParseProgram | xmcd2cs/Parser.cs:701-721 | a program has one entry per statement |
| Statements.ProgramItems | xmcd2cs/Parser.cs:705-718 | a translated program holds only `ifThen` and `apply` statements |
| Statements.ParseIfThen | xmcd2cs/Parser.cs:723-751 | a guarded return is four lines: the `if`, `{`, the return, `}` |
| Statements.ParseDefinition | xmcd2cs/Parser.cs:82-161 | a definition is translated only for the twelve accepted child shapes; any other is "Unknown define" |
| Statements.ParseEval | xmcd2cs/Parser.cs:532-571 | an evaluation is one line, with an id or apply target and one to three children |
| StatementsProperties.BoundVarListJoins | xmcd2cs/Parser.cs:473-476 | the bound-variable loop gives the comma-join of the `double v` declarations plus a trailing comma |
| StatementsProperties.FunctionSignature | xmcd2cs/Parser.cs:467-478 | the signature declares one `double` parameter per bound variable, in order; with none, the last-character removal takes the `(` and leaves `public double f)` |
| StatementsProperties.FunctionNeedsBoundValues | xmcd2cs/Parser.cs:473-476 | a signature is built iff every bound variable has a value |
| StatementsProperties.CellTargetDecodes | xmcd2cs/Parser.cs:641-660 | the target `matrix[r, c]` of cell `i` reads back as `i == c * rows + r` with `r < rows` (column-major) |
| StatementsProperties.CellTargetInjective | xmcd2cs/Parser.cs:641-660 | distinct cells get distinct targets |
| StatementsProperties.MatrixCellsInOrder | xmcd2cs/Parser.cs:641-666 | line `k` of the cells is child `k`'s line at flat index `k` |
| StatementsProperties.MatrixLayout | xmcd2cs/Parser.cs:624-670 | a translated matrix starts with `Dense(rows, cols)` of the read sizes; a matrix with children has a positive row count, and line `k + 1` assigns to the target of index `k` |
| StatementsProperties.MatrixHeaderEchoes | xmcd2cs/Parser.cs:626-639 | sizes written as plain decimals are repeated as written in the construction line |
| StatementsProperties.MatrixWithoutRows | xmcd2cs/Parser.cs:626-646 | without a `rows` attribute, the first cell of a known kind divides by zero |
| StatementsProperties.DefinitionSucceeds | xmcd2cs/Parser.cs:82-161 | a definition is translated iff its shape is accepted and both children's own translations succeed |
| StatementsProperties.DefinitionLines | xmcd2cs/Parser.cs:99-116 | a function definition is the signature, `{`, `return body;`, `}`; every other definition is one line |
| StatementsProperties.DefinitionVisibility | xmcd2cs/Parser.cs:85-138 | an identifier on the left defined as anything but an identifier declares a `public` member |
| StatementsProperties.DefinitionCopies | xmcd2cs/Parser.cs:89-92 | an identifier defined as an identifier is the single line `double x = y;`, without `public` |
| StatementsProperties.DefinitionOfIdentifier | xmcd2cs/Parser.cs:85-138 | the exact line for an identifier defined as a number, an apply or a group (a getter), a range, a matrix (`public var`) or a program |
| StatementsProperties.DefinitionOfApply | xmcd2cs/Parser.cs:139-156 | an apply defined as an apply, a group or a program is the assignment `target=value;` |
| StatementsProperties.DefinitionAssigns | xmcd2cs/Parser.cs:139-156 | an apply on the left is assigned to: the line starts with its fragment and `=` |
| StatementsProperties.EvalSucceeds | xmcd2cs/Parser.cs:532-571 | an evaluation is translated iff its children form an accepted list and each child's translation succeeds |
| StatementsProperties.EvalLoneField | xmcd2cs/Parser.cs:563-566 | a lone identifier evaluates to the public field `public double x = 0;` |
| StatementsProperties.EvalResultField | xmcd2cs/Parser.cs:542-553 | an evaluation with a result declares a public field named by the identifier's value or the apply's fragment, holding the shown result |
| StatementsProperties.EvalUnitField | xmcd2cs/Parser.cs:535-561 | an evaluation with a unit override declares that field holding the result, a space, then the override's fragment |
| StatementsProperties.ResultIgnoresUnit | xmcd2cs/Parser.cs:595-606 | a united result shows its number only; exchanging the unit changes nothing |
| StatementsProperties.UnitOverrideForms | xmcd2cs/Parser.cs:572-590 | a unit override with one apply child is that apply's fragment, one with one id child is the resolved name, any other shape is "Unknown unit override" |
| StatementsProperties.ResultForms | xmcd2cs/Parser.cs:592-622 | a result with one real child shows its text; one with a matrix child shows the matrix lines one per line, or the matrix's failure; a united value shows its number or is "Unknown unitedValue"; any other shape is "Unknown result" |
| StatementsProperties.RangeForm | xmcd2cs/Parser.cs:489-507 | a range succeeds iff its shape is accepted and its bound translates; a grouped bound gives `Enumerable.Range(start, bound - start)`, an identifier bound `Enumerable.Range(start, bound)` with no subtraction |
| StatementsProperties.ProgramInOrder | xmcd2cs/Parser.cs:701-721 | a program's entries are its statements' entries one for one, in order; it fails iff one of them does |
| StatementsProperties.IfThenForm | xmcd2cs/Parser.cs:723-751 | a guarded return succeeds iff its shape is accepted and its parts translate; it is `if(cond)`, `{`, `return v;`, `}` |
| Walker.Dispatch | xmcd2cs/Parser.cs:50-75 | non-math nodes add nothing; an unhandled math node adds only its local name to "to implement"; a definition or evaluation adds exactly its translator's lines and a top-level apply the line `public double Function { get { return f; } }`, each failing with its translator |
| Walker.Translate | xmcd2cs/Parser.cs:20-43 | the unit starts with the fixed header and ends with the footer |
| WalkerProperties.VisitIsFold | xmcd2cs/Parser.cs:45-80 | the walk of a subtree dispatches its elements in pre-order: the node first, then each child's subtree |
| WalkerProperties.ChildrenAreFold | xmcd2cs/Parser.cs:45-80 | the walk of a child list dispatches the children's subtrees in document order |
| WalkerProperties.DispatchAllSucceeds | xmcd2cs/Parser.cs:47-78 | a walk succeeds iff every element's dispatch does |
| WalkerProperties.FirstFailureWins | xmcd2cs/Parser.cs:47-78 | the walk aborts with the reason of the first failing element |
| WalkerProperties.UnimplementedAreUnhandled | xmcd2cs/Parser.cs:50-75 | the "to implement" names are exactly the local names of the unhandled math nodes met |
| WalkerProperties.TranslateIsFold | xmcd2cs/Parser.cs:20-80 | `Parse` succeeds iff every element below the root dispatches; it writes the header, those elements' lines in document order, and the footer |

## Left out

- Loading the XML file, `Path.GetFileNameWithoutExtension`, and the rest of the program (`Program.cs`, `BinaryExtractor.cs`) are not part of this model. The class name is a parameter.
- Release builds, where `Debug.Fail` does nothing and the method falls through to `return string.Empty` or appends nothing, are not modelled. The model takes the debug-build abort everywhere.
- The parser's `ToImplement` set after an abort is not modelled. A failed walk reports only the reason.
- The `"Unknown operator!"` branch (line 218) is not modelled: the enclosing test admits only the nine listed operators, so it cannot run.
- `XElement.Value` is the node's `text` field. The concatenation of descendant text that it stands for is not computed.
- Attributes in a namespace are not modelled; the translator reads only `rows`, `cols` and `subscript`, which have none.
- The newline of `AppendLine` is `"\n"`; the platform's `Environment.NewLine` is not modelled.
- ParseApply: its own contract states only the dispatch on the child count. The forms of each operator are stated by lemmas about it: `ThreeChildAccepted`, `InfixInOrder`, `ComplexHeuristic`, `PowerForms`, `TwoChildRejected`, `OneOperandForms`, `OneOperandOfApply`, `CallForms`, `LogOfE` and `IfOfSequence` in `TranslatorProperties`.
- MatrixCell: its own contract states the kind check, the row count and the target; the value each kind assigns is stated by `MatrixCellValue` and `MatrixComplexCell` in `StatementsProperties`.
- RewriteProofs.IfRewriteIsTernary: stated only for a fragment without `;`. A `;` already in the fragment (only an identifier or number text could carry one) can be turned into a comma by the restore pass, and then the result is not the ternary of the original text; `TranslatorProperties.IfOfSequence` inherits this condition for its ternary clause.
- Translator.ParseSequence: its own contract states only the item kinds; the `", "` join is stated by `SequenceIsJoin` and `SequenceJoins` in `TranslatorProperties`.
- Translator.GetValue: its own contract leaves out the delegation to `ParseApply`, `ParseParens` and `ParseSequence`, which `ValueDelegates` in `TranslatorProperties` states.
- Statements.ParseUnitOverride: its own contract states only the accepted shapes; the fragment is stated by `UnitOverrideForms` in `StatementsProperties`.
- Statements.ParseResult: its own contract states only the accepted shapes; the shown text is stated by `ResultForms` and `ResultIgnoresUnit` in `StatementsProperties`.
- ParseDefinition: its own contract states the accepted shapes and the line count; the exact lines are stated by `DefinitionCopies`, `DefinitionOfIdentifier`, `DefinitionOfApply` and `DefinitionLines` in `StatementsProperties`.
- `Strings.IndexOfSub`: ordinal search only. The culture-sensitive comparison of `string.IndexOf(string)` is not modelled.
- `Strings.IndexOfChar`: ordinal search only. The source searches for `","`, `"["`, `"]"` and `";"` with the culture-sensitive `string.IndexOf(string, …)` overloads; for these ASCII punctuation characters the model treats the match as an exact character match.
- `Statements.Dimension`: accepts only plain decimal digits. `int.Parse`'s leading and trailing whitespace, signs and 32-bit overflow are not modelled. Such input is the format failure here.
- The numeric meaning of the generated C# (`double`, `Complex`, `Math.Pow`) is out of scope. Fragments are compared as text.

=== FILE: conditional.dfy ===
/** The `if(sequence)` to ternary rewrite of `ParseApply`
    (xmcd2cs/Parser.cs:314-377).

    The sequence fragment `c, t, e` is turned into `(c ? (t) : e)`. Commas
    that belong to a `Math.Pow(a, b)` call or to an index `[i, j]` must not be
    taken for the two separating commas, so the rewrite first turns them into
    `;`, splits on the remaining commas, reassembles, and finally turns the
    same `;` back into `,`.
 */
module Conditional {
  import opened Results
  import opened Strings

  const POW: string := "Math.Pow"

  /** `t` is `s` with some (possibly no) `x` characters replaced by `y`. */
  predicate Toggled(s: string, t: string, x: char, y: char) {
    |t| == |s| && forall i :: 0 <= i < |s| ==> t[i] == s[i] || (s[i] == x && t[i] == y)
  }

  /** The `Math.Pow` loop: for every `Math.Pow` at or after `from`, the first
      `x` at or after it becomes `y`. When some `Math.Pow` has no `x` after
      it, the source indexes its char array with -1, which throws. */
  function PowPass(s: string, from: nat, x: char, y: char): (r: Result<string>)
    requires from <= |s|
    decreases |s| - from
  {
    var index := IndexOfSub(s, POW, from);
    if index < 0 then Ok(s)
    else
      var comma := IndexOfChar(s, x, index, |s|);
      if comma < 0 then Fail("Index was outside the bounds of the array.")
      else PowPass(s[comma := y], index + 1, x, y)
  }

  /** The `[` loop: for every `[` at or after `from` that has a `]` after it,
      the first `x` between the two becomes `y`. */
  function BracketPass(s: string, from: nat, x: char, y: char): (r: string)
    requires from <= |s|
    decreases |s| - from
  {
    var index := IndexOfChar(s, '[', from, |s|);
    if index < 0 then s
    else
      var endIndex := IndexOfChar(s, ']', index, |s|);
      var comma := if endIndex >= 0 then IndexOfChar(s, x, index, endIndex) else -1;
      var next := if comma >= 0 then s[comma := y] else s;
      BracketPass(next, index + 1, x, y)
  }

  /** Lines 316-343: hide the commas of `Math.Pow` calls and index brackets. */
  function Substitute(s: string): (r: Result<string>)
    ensures r.Ok? ==> Toggled(s, r.value, ',', ';')
  {
    var hidden :- PowPass(s, 0, ',', ';');
    PowPassToggles(s, 0, ',', ';');
    BracketPassToggles(hidden, 0, ',', ';');
    Ok(BracketPass(hidden, 0, ',', ';'))
  }

  /** The `Math.Pow` loop only turns `x` characters into `y`. */
  lemma {:induction false} PowPassToggles(s: string, from: nat, x: char, y: char)
    requires from <= |s|
    ensures PowPass(s, from, x, y).Ok? ==> Toggled(s, PowPass(s, from, x, y).value, x, y)
    decreases |s| - from
  {
    var index := IndexOfSub(s, POW, from);
    if index >= 0 {
      var comma := IndexOfChar(s, x, index, |s|);
      if comma >= 0 {
        PowPassToggles(s[comma := y], index + 1, x, y);
      }
    }
  }

  /** The `[` loop only turns `x` characters into `y`. */
  lemma {:induction false} BracketPassToggles(s: string, from: nat, x: char, y: char)
    requires from <= |s|
    ensures Toggled(s, BracketPass(s, from, x, y), x, y)
    decreases |s| - from
  {
    var index := IndexOfChar(s, '[', from, |s|);
    if index >= 0 {
      var endIndex := IndexOfChar(s, ']', index, |s|);
      var comma := if endIndex >= 0 then IndexOfChar(s, x, index, endIndex) else -1;
      var next := if comma >= 0 then s[comma := y] else s;
      BracketPassToggles(next, index + 1, x, y);
    }
  }

  /** Lines 349-376: bring the hidden commas back. */
  function Restore(s: string): (r: Result<string>)
    ensures r.Ok? ==> Toggled(s, r.value, ';', ',')
  {
    var shown :- PowPass(s, 0, ';', ',');
    PowPassToggles(s, 0, ';', ',');
    BracketPassToggles(shown, 0, ';', ',');
    Ok(BracketPass(shown, 0, ';', ','))
  }

  /** Line 347: condition, then-branch and else-branch as a C# ternary. */
  function Ternary(c: string, t: string, e: string): string {
    "(" + c + " ? (" + t + ") : " + e + ")"
  }

  /** The whole rewrite of the comma-joined sequence fragment `s`. */
  function IfRewrite(s: string): (r: Result<string>)
    ensures r.Ok? ==> Substitute(s).Ok? && |Split(Substitute(s).value, ',')| == 3
  {
    var hidden :- Substitute(s);
    var parts := Split(hidden, ',');
    if |parts| != 3 then Fail("correct if then else")
    else Restore(Ternary(parts[0], parts[1], parts[2]))
  }
}

=== FILE: conditional_proofs.dfy ===
/** Why the `if` rewrite is sound: restoring undoes substituting.

    Both passes of `Conditional` replace, for a list of "windows" fixed by
    the positions of `Math.Pow`, `[` and `]`, the first separator of one kind
    in each window by the other kind. Since those anchor characters are never
    separators, the windows do not move while the passes run, and running the
    same windows again with the roles of `,` and `;` swapped finds exactly the
    characters the first run changed.
 */
module ConditionalProofs {
  import opened Results
  import opened Strings
  import opened Conditional

  /** The span searched for one separator: positions [lo, hi). A required
      window whose span holds no separator aborts the pass. A window that
      does not fit the string holds no separator. */
  datatype Window = Window(lo: nat, hi: nat, required: bool)

  predicate IsSep(c: char) {
    c == ',' || c == ';'
  }

  /** The first `x` inside window `w` of `s`, or -1. */
  function Find(s: string, x: char, w: Window): (c: int)
    ensures c == -1 || (w.lo <= c < w.hi <= |s| && s[c] == x)
  {
    if w.lo <= w.hi <= |s| then IndexOfChar(s, x, w.lo, w.hi) else -1
  }

  /** Replace the first `x` of every window, in order, by `y`. */
  function ToggleAll(s: string, ws: seq<Window>, x: char, y: char): (r: Result<string>)
    ensures r.Ok? ==> Toggled(s, r.value, x, y)
    decreases |ws|
  {
    if |ws| == 0 then Ok(s)
    else
      var c := Find(s, x, ws[0]);
      if c < 0 then
        if ws[0].required then Fail("Index was outside the bounds of the array.")
        else ToggleAll(s, ws[1..], x, y)
      else ToggleAll(s[c := y], ws[1..], x, y)
  }

  /** One window per `Math.Pow` at or after `from`, reaching to the end. */
  function PowWindows(s: string, from: nat): (ws: seq<Window>)
    requires from <= |s|
    decreases |s| - from
  {
    var p := IndexOfSub(s, POW, from);
    if p < 0 then [] else [Window(p, |s|, true)] + PowWindows(s, p + 1)
  }

  /** One window per `[` at or after `from` that has a `]` after it, reaching
      to that `]`. */
  function BracketWindows(s: string, from: nat): (ws: seq<Window>)
    requires from <= |s|
    decreases |s| - from
  {
    var b := IndexOfChar(s, '[', from, |s|);
    if b < 0 then []
    else
      var e := IndexOfChar(s, ']', b, |s|);
      if e >= 0 then [Window(b, e, false)] + BracketWindows(s, b + 1)
      else BracketWindows(s, b + 1)
  }

  /** The windows of both passes over `s`. */
  function SeparatorWindows(s: string): (ws: seq<Window>)
  {
    PowWindows(s, 0) + BracketWindows(s, 0)
  }

  /** `s` and `t` differ at most by trading one separator for another. */
  predicate SameSkeleton(s: string, t: string) {
    |s| == |t| && forall i :: 0 <= i < |s| ==> s[i] == t[i] || (IsSep(s[i]) && IsSep(t[i]))
  }

  lemma ToggledSkeleton(s: string, t: string, x: char, y: char)
    requires IsSep(x) && IsSep(y) && Toggled(s, t, x, y)
    ensures SameSkeleton(s, t)
  {
  }

  lemma SkeletonAfterSet(s: string, c: nat, y: char)
    requires c < |s| && IsSep(s[c]) && IsSep(y)
    ensures SameSkeleton(s, s[c := y])
  {
  }

  lemma PowHasNoSep()
    ensures forall j :: 0 <= j < |POW| ==> !IsSep(POW[j])
  {
  }

  lemma {:induction false} SkeletonMatches(s: string, t: string, k: nat, j: nat)
    requires SameSkeleton(s, t) && k + |POW| <= |s| && j <= |POW|
    ensures MatchesFrom(s, POW, k, j) == MatchesFrom(t, POW, k, j)
    decreases |POW| - j
  {
    if j < |POW| {
      PowHasNoSep();
      SkeletonMatches(s, t, k, j + 1);
    }
  }

  /** Searching for `Math.Pow` ignores which separators a string holds. */
  lemma {:induction false} SkeletonIndexOfPow(s: string, t: string, from: nat)
    requires SameSkeleton(s, t) && from <= |s|
    ensures IndexOfSub(s, POW, from) == IndexOfSub(t, POW, from)
    decreases |s| - from
  {
    if from + |POW| <= |s| {
      SkeletonMatches(s, t, from, 0);
      SkeletonIndexOfPow(s, t, from + 1);
    }
  }

  /** The `Math.Pow` windows do not depend on which separators a string holds. */
  lemma {:induction false} SkeletonPowWindows(s: string, t: string, from: nat)
    requires SameSkeleton(s, t) && from <= |s|
    ensures PowWindows(s, from) == PowWindows(t, from)
    decreases |s| - from
  {
    // `hide` keeps the searches' bodies out of the proof, so only their
    // contracts are used; this keeps each step small.
    hide IndexOfSub, MatchesFrom;
    var p := IndexOfSub(s, POW, from);
    SkeletonIndexOfPow(s, t, from);
    if p >= 0 {
      SkeletonPowWindows(s, t, p + 1);
    }
  }

  /** Searching for a character that is not a separator ignores which
      separators a string holds. */
  lemma {:induction false} SkeletonIndexOfChar(s: string, t: string, c: char, lo: nat, hi: nat)
    requires SameSkeleton(s, t) && !IsSep(c) && lo <= hi <= |s|
    ensures IndexOfChar(s, c, lo, hi) == IndexOfChar(t, c, lo, hi)
    decreases hi - lo
  {
    if lo < hi {
      SkeletonIndexOfChar(s, t, c, lo + 1, hi);
    }
  }

  /** The bracket windows do not depend on which separators a string holds. */
  lemma {:induction false} SkeletonBracketWindows(s: string, t: string, from: nat)
    requires SameSkeleton(s, t) && from <= |s|
    ensures BracketWindows(s, from) == BracketWindows(t, from)
    decreases |s| - from
  {
    var b := IndexOfChar(s, '[', from, |s|);
    SkeletonIndexOfChar(s, t, '[', from, |s|);
    if b >= 0 {
      SkeletonIndexOfChar(s, t, ']', b, |s|);
      SkeletonBracketWindows(s, t, b + 1);
    }
  }

  lemma SkeletonSeparatorWindows(s: string, t: string)
    requires SameSkeleton(s, t)
    ensures SeparatorWindows(s) == SeparatorWindows(t)
  {
    SkeletonPowWindows(s, t, 0);
    SkeletonBracketWindows(s, t, 0);
  }

  /** One round of the `[` loop. */
  lemma BracketPassStep(s: string, from: nat, x: char, y: char, b: int, e: int, next: string)
    requires from <= |s| && b == IndexOfChar(s, '[', from, |s|) && b >= 0
    requires e == IndexOfChar(s, ']', b, |s|)
    requires next == (var comma := if e >= 0 then IndexOfChar(s, x, b, e) else -1;
                      if comma >= 0 then s[comma := y] else s)
    ensures BracketPass(s, from, x, y) == BracketPass(next, b + 1, x, y)
  {
  }

  /** The `[` loop stops when no `[` is left. */
  lemma BracketPassDone(s: string, from: nat, x: char, y: char)
    requires from <= |s| && IndexOfChar(s, '[', from, |s|) < 0
    ensures BracketPass(s, from, x, y) == s
  {
  }

  /** One round of the `[` loop that finds its separator at `comma`. */
  lemma SeparatedStep(s: string, from: nat, x: char, y: char, b: int, e: int, comma: int)
    requires from <= |s| && b == IndexOfChar(s, '[', from, |s|) && b >= 0
    requires e == IndexOfChar(s, ']', b, |s|) && e >= 0
    requires comma == IndexOfChar(s, x, b, e) && comma >= 0
    ensures BracketPass(s, from, x, y) == BracketPass(s[comma := y], b + 1, x, y)
  {
  }

  /** One round of the `Math.Pow` loop that finds its separator at `c`. */
  lemma PowPassStep(s: string, from: nat, x: char, y: char, p: int, c: int)
    requires from <= |s| && p == IndexOfSub(s, POW, from) && p >= 0
    requires c == IndexOfChar(s, x, p, |s|) && c >= 0
    ensures PowPass(s, from, x, y) == PowPass(s[c := y], p + 1, x, y)
  {
  }

  /** The `Math.Pow` loop stops when no `Math.Pow` is left. */
  lemma PowPassDone(s: string, from: nat, x: char, y: char)
    requires from <= |s| && IndexOfSub(s, POW, from) < 0
    ensures PowPass(s, from, x, y) == Ok(s)
  {
  }

  /** The `Math.Pow` loop fails at a `Math.Pow` with no separator after it. */
  lemma PowPassStuck(s: string, from: nat, x: char, y: char, p: int)
    requires from <= |s| && p == IndexOfSub(s, POW, from) && p >= 0
    requires IndexOfChar(s, x, p, |s|) < 0
    ensures PowPass(s, from, x, y) == Fail("Index was outside the bounds of the array.")
  {
  }

  lemma PowWindowsStep(s: string, from: nat, p: int)
    requires from <= |s| && p == IndexOfSub(s, POW, from) && p >= 0
    ensures PowWindows(s, from) == [Window(p, |s|, true)] + PowWindows(s, p + 1)
  {
  }

  lemma BracketWindowsStep(s: string, from: nat, b: int, e: int)
    requires from <= |s| && b == IndexOfChar(s, '[', from, |s|) && b >= 0
    requires e == IndexOfChar(s, ']', b, |s|)
    ensures BracketWindows(s, from) ==
              if e >= 0 then [Window(b, e, false)] + BracketWindows(s, b + 1)
              else BracketWindows(s, b + 1)
  {
  }

  /** One round of toggling. */
  lemma ToggleAllCons(s: string, w: Window, rest: seq<Window>, x: char, y: char)
    ensures var c := Find(s, x, w);
            ToggleAll(s, [w] + rest, x, y) ==
              if c >= 0 then ToggleAll(s[c := y], rest, x, y)
              else if w.required then Fail("Index was outside the bounds of the array.")
              else ToggleAll(s, rest, x, y)
  {
    assert ([w] + rest)[0] == w && ([w] + rest)[1..] == rest;
  }

  /** The `Math.Pow` loop toggles the separator of each `Math.Pow` window. */
  lemma {:induction false} PowPassIsToggle(s: string, from: nat, x: char, y: char)
    requires from <= |s| && IsSep(x) && IsSep(y)
    ensures PowPass(s, from, x, y) == ToggleAll(s, PowWindows(s, from), x, y)
    decreases |s| - from, 1
  {
    var p := IndexOfSub(s, POW, from);
    if p >= 0 {
      PowRoundIsToggle(s, from, x, y, p);
    }
  }

  /** One round of the `Math.Pow` loop, at the `Math.Pow` found at `p`. */
  lemma {:induction false} PowRoundIsToggle(s: string, from: nat, x: char, y: char, p: int)
    requires from <= |s| && IsSep(x) && IsSep(y)
    requires p == IndexOfSub(s, POW, from) && p >= 0
    ensures PowPass(s, from, x, y) == ToggleAll(s, PowWindows(s, from), x, y)
    decreases |s| - from, 0
  {
    hide PowPass, PowWindows, IndexOfSub, ToggleAll;
    var c := IndexOfChar(s, x, p, |s|);
    PowWindowsStep(s, from, p);
    ToggleAllCons(s, Window(p, |s|, true), PowWindows(s, p + 1), x, y);
    if c < 0 {
      PowPassStuck(s, from, x, y, p);
    } else {
      var s' := s[c := y];
      PowPassStep(s, from, x, y, p, c);
      assert PowWindows(s', p + 1) == PowWindows(s, p + 1) by {
        SkeletonAfterSet(s, c, y);
        SkeletonPowWindows(s, s', p + 1);
      }
      PowPassIsToggle(s', p + 1, x, y);
    }
  }

  /** The `[` loop toggles the separator of each bracket window. */
  lemma {:induction false} BracketPassIsToggle(s: string, from: nat, x: char, y: char)
    requires from <= |s| && IsSep(x) && IsSep(y)
    ensures ToggleAll(s, BracketWindows(s, from), x, y) == Ok(BracketPass(s, from, x, y))
    decreases |s| - from, 3
  {
    var b := IndexOfChar(s, '[', from, |s|);
    if b >= 0 {
      BracketRoundIsToggle(s, from, x, y, b);
    }
  }

  /** One round of the `[` loop, at the `[` found at `b`. */
  lemma {:induction false} BracketRoundIsToggle(s: string, from: nat, x: char, y: char, b: int)
    requires from <= |s| && IsSep(x) && IsSep(y)
    requires b == IndexOfChar(s, '[', from, |s|) && b >= 0
    ensures ToggleAll(s, BracketWindows(s, from), x, y) == Ok(BracketPass(s, from, x, y))
    decreases |s| - from, 2
  {
    var e := IndexOfChar(s, ']', b, |s|);
    if e >= 0 {
      ClosedBracketIsToggle(s, from, x, y, b, e);
    } else {
      UnclosedBracketIsToggle(s, from, x, y, b, e);
    }
  }

  /** A round of the `[` loop whose `[` at `b` has no `]` after it. */
  lemma {:induction false} UnclosedBracketIsToggle(s: string, from: nat, x: char, y: char, b: int, e: int)
    requires from <= |s| && IsSep(x) && IsSep(y)
    requires b == IndexOfChar(s, '[', from, |s|) && b >= 0
    requires e == IndexOfChar(s, ']', b, |s|) && e < 0
    ensures ToggleAll(s, BracketWindows(s, from), x, y) == Ok(BracketPass(s, from, x, y))
    decreases |s| - from, 1
  {
    var rest := BracketWindows(s, b + 1);
    BracketWindowsStep(s, from, b, e);
    BracketPassStep(s, from, x, y, b, e, s);
    BracketPassIsToggle(s, b + 1, x, y);
  }

  /** A round of the `[` loop whose `[` at `b` is closed by the `]` at `e`. */
  lemma {:induction false} ClosedBracketIsToggle(s: string, from: nat, x: char, y: char, b: int, e: int)
    requires from <= |s| && IsSep(x) && IsSep(y)
    requires b == IndexOfChar(s, '[', from, |s|) && b >= 0
    requires e == IndexOfChar(s, ']', b, |s|) && e >= 0
    ensures ToggleAll(s, BracketWindows(s, from), x, y) == Ok(BracketPass(s, from, x, y))
    decreases |s| - from, 1
  {
    var comma := IndexOfChar(s, x, b, e);
    if comma >= 0 {
      SeparatedBracketIsToggle(s, from, x, y, b, e, comma);
    } else {
      var rest := BracketWindows(s, b + 1);
      BracketWindowsStep(s, from, b, e);
      ToggleAllCons(s, Window(b, e, false), rest, x, y);
      BracketPassStep(s, from, x, y, b, e, s);
      BracketPassIsToggle(s, b + 1, x, y);
    }
  }

  /** A round of the `[` loop that toggles the separator at `comma`. */
  lemma {:induction false} SeparatedBracketIsToggle(s: string, from: nat, x: char, y: char,
                                                    b: int, e: int, comma: int)
    requires from <= |s| && IsSep(x) && IsSep(y)
    requires b == IndexOfChar(s, '[', from, |s|) && b >= 0
    requires e == IndexOfChar(s, ']', b, |s|) && e >= 0
    requires comma == IndexOfChar(s, x, b, e) && comma >= 0
    ensures ToggleAll(s, BracketWindows(s, from), x, y) == Ok(BracketPass(s, from, x, y))
    decreases |s| - from, 0
  {
    var s' := s[comma := y];
    BracketWindowsStep(s, from, b, e);
    ToggleAllCons(s, Window(b, e, false), BracketWindows(s, b + 1), x, y);
    SeparatedStep(s, from, x, y, b, e, comma);
    assert BracketWindows(s', b + 1) == BracketWindows(s, b + 1) by {
      SkeletonAfterSet(s, comma, y);
      SkeletonBracketWindows(s, s', b + 1);
    }
    BracketPassIsToggle(s', b + 1, x, y);
  }

  /** Toggling along `a + b` is toggling along `a`, then along `b`. */
  lemma {:induction false} ToggleAllConcat(s: string, a: seq<Window>, b: seq<Window>, x: char, y: char)
    ensures ToggleAll(s, a + b, x, y) ==
              match ToggleAll(s, a, x, y)
              case Ok(t) => ToggleAll(t, b, x, y)
              case Fail(e) => Fail(e)
    decreases |a|
  {
    if |a| == 0 {
      assert a + b == b;
    } else {
      assert (a + b)[0] == a[0];
      assert (a + b)[1..] == a[1..] + b;
      var c := Find(s, x, a[0]);
      if c < 0 {
        if !a[0].required {
          ToggleAllConcat(s, a[1..], b, x, y);
        }
      } else {
        ToggleAllConcat(s[c := y], a[1..], b, x, y);
      }
    }
  }

  /** Both passes together toggle the separator windows. */
  lemma SubstituteIsToggle(s: string)
    ensures Substitute(s) == ToggleAll(s, SeparatorWindows(s), ',', ';')
    ensures Restore(s) == ToggleAll(s, SeparatorWindows(s), ';', ',')
  {
    PowPassIsToggle(s, 0, ',', ';');
    PowPassIsToggle(s, 0, ';', ',');
    ToggleAllConcat(s, PowWindows(s, 0), BracketWindows(s, 0), ',', ';');
    ToggleAllConcat(s, PowWindows(s, 0), BracketWindows(s, 0), ';', ',');
    var p := PowPass(s, 0, ',', ';');
    if p.Ok? {
      PowPassToggles(s, 0, ',', ';');
      ToggledSkeleton(s, p.value, ',', ';');
      SkeletonBracketWindows(s, p.value, 0);
      BracketPassIsToggle(p.value, 0, ',', ';');
    }
    var q := PowPass(s, 0, ';', ',');
    if q.Ok? {
      PowPassToggles(s, 0, ';', ',');
      ToggledSkeleton(s, q.value, ';', ',');
      SkeletonBracketWindows(s, q.value, 0);
      BracketPassIsToggle(q.value, 0, ';', ',');
    }
  }

  /** `t` with every position of `e` set back to `x`. */
  function Revert(t: string, e: set<int>, x: char): (r: string)
    ensures |r| == |t|
  {
    seq(|t|, i requires 0 <= i < |t| => if i in e then x else t[i])
  }

  /** Toggling the same windows back, after reverting the positions that
      already held `y` before the toggle, undoes the toggle. */
  lemma {:induction false} ToggleUndo(u: string, ws: seq<Window>, x: char, y: char, e: set<int>)
    requires x != y
    requires forall i :: 0 <= i < |u| ==> (u[i] == y <==> i in e)
    requires ToggleAll(u, ws, x, y).Ok?
    ensures ToggleAll(Revert(ToggleAll(u, ws, x, y).value, e, x), ws, y, x) == Ok(Revert(u, e, x))
    decreases |ws|
  {
    var t := ToggleAll(u, ws, x, y).value;
    var v := Revert(t, e, x);
    if |ws| == 0 {
    } else {
      var w := ws[0];
      var c := Find(u, x, w);
      if c < 0 {
        assert t == ToggleAll(u, ws[1..], x, y).value;
        if w.lo <= w.hi <= |u| {
          IndexOfCharFirst(u, x, w.lo, w.hi);
          forall k | w.lo <= k < w.hi
            ensures v[k] != y
          {
          }
          IndexOfCharIs(v, y, w.lo, w.hi, -1);
        }
        ToggleUndo(u, ws[1..], x, y, e);
      } else {
        var u1 := u[c := y];
        var e1 := e + {c};
        assert t == ToggleAll(u1, ws[1..], x, y).value;
        assert t[c] == y;
        IndexOfCharFirst(u, x, w.lo, w.hi);
        forall k | w.lo <= k < c
          ensures v[k] != y
        {
          assert u1[k] == u[k] && u[k] != x;
        }
        IndexOfCharIs(v, y, w.lo, w.hi, c);
        assert v[c := x] == Revert(t, e1, x);
        ToggleUndo(u1, ws[1..], x, y, e1);
        assert Revert(u1, e1, x) == Revert(u, e, x);
      }
    }
  }

  /** Restoring undoes substituting, on any fragment without `;`. */
  lemma RestoreSubstitute(s: string)
    requires ';' !in s
    requires Substitute(s).Ok?
    ensures Restore(Substitute(s).value) == Ok(s)
  {
    var t := Substitute(s).value;
    SubstituteIsToggle(s);
    SubstituteIsToggle(t);
    ToggledSkeleton(s, t, ',', ';');
    SkeletonSeparatorWindows(s, t);
    ToggleUndo(s, SeparatorWindows(s), ',', ';', {});
    assert Revert(t, {}, ',') == t;
    assert Revert(s, {}, ',') == s;
  }
}

=== FILE: results.dfy ===
/** Failure-compatible wrappers used by every translator of the model.

    The translator in xmcd2cs/Parser.cs reports an unsupported construct with
    `Debug.Fail` / `Debug.Assert`, and a few shapes raise a .NET exception
    instead (an array index of -1, a division by zero, `.Value` of a missing
    element, `int.Parse` of a malformed attribute). The model treats all of
    them alike, as an abort of the document: `Fail(reason)`, where `reason`
    is the message the source attaches.
 */
module Results {

  /** Either the text produced by a translator, or the abort it raised. */
  datatype Result<+T> = Ok(value: T) | Fail(reason: string) {

    predicate IsFailure() {
      Fail?
    }

    function PropagateFailure<U>(): Result<U>
      requires Fail?
    {
      Fail(reason)
    }

    function Extract(): T
      requires Ok?
    {
      value
    }
  }

  /** An optional value, for attributes and child lookups that may be absent. */
  datatype Option<+T> = None | Some(value: T)
}

=== FILE: rewrite_proofs.dfy ===
/** What the `if` rewrite produces.

    The rewrite hides the commas of `Math.Pow` calls and index brackets,
    splits on the commas left, reassembles the three pieces as a ternary and
    then restores the hidden commas. The reassembly only inserts and removes
    characters the restoring passes never look at, so restoring the ternary
    restores exactly what restoring the hidden fragment would: the result is
    the ternary built from the original fragment's own pieces.

    The reassembly is a chain of splices: `A + m + B` becomes `A + w + B`,
    where `m` and `w` are inert (no `;`, no bracket, no letter of
    `Math.Pow`).
 */
module RewriteProofs {
  import opened Results
  import opened Strings
  import opened Conditional
  import ConditionalProofs

  /** A character none of the restoring searches stops at. */
  predicate Inert(ch: char) {
    ch != ';' && ch != '[' && ch != ']' && ch !in POW
  }

  predicate AllInert(m: string) {
    forall i :: 0 <= i < |m| ==> Inert(m[i])
  }

  /** Where a position of `A + m + B` lands in `A + w + B` (|A| = a, |m| = m,
      |w| = w). Positions inside `m` only matter as search starts; they land
      at the start of `w`. -1 stays -1. */
  function Shift(i: int, a: nat, m: nat, w: nat): int {
    if i < a then i else if i < a + m then a else i - m + w
  }

  /** A position of `A + m + B` that is not inside `m`. */
  predicate Outside(i: int, a: nat, m: nat) {
    i < a || a + m <= i
  }

  /** Search starts `i` in `A + m + B` and `j` in `A + w + B` that see the
      same characters up to inert ones: the same position of `A`, any two
      positions around the middle parts, or the same position of `B`. */
  predicate Corr(i: int, j: int, a: nat, m: nat, w: nat) {
    (0 <= i <= a && j == i) || (a <= i <= a + m && a <= j <= a + w) || (a + m <= i && j == i - m + w)
  }

  /** Searching for a character absent from both `m` and `w` finds
      corresponding positions before and after the splice. */
  lemma IndexOfCharSplice(A: string, m: string, w: string, B: string, c: char,
                           lo: nat, lo': nat, hi: nat)
    requires c !in m && c !in w
    requires lo <= hi <= |A| + |m| + |B|
    requires Outside(hi, |A|, |m|)
    requires Corr(lo, lo', |A|, |m|, |w|)
    ensures lo' <= Shift(hi, |A|, |m|, |w|) <= |A| + |w| + |B|
    ensures IndexOfChar(A + w + B, c, lo', Shift(hi, |A|, |m|, |w|))
            == Shift(IndexOfChar(A + m + B, c, lo, hi), |A|, |m|, |w|)
  {
    var u := A + m + B;
    var v := A + w + B;
    var a, lm, lw := |A|, |m|, |w|;
    var r := IndexOfChar(u, c, lo, hi);
    IndexOfCharFirst(u, c, lo, hi);
    var hi', r' := Shift(hi, a, lm, lw), Shift(r, a, lm, lw);
    if r >= 0 {
      assert Outside(r, a, lm);
      assert v[r'] == c by {
        if r < a {
          assert v[r'] == A[r] == u[r];
        } else {
          assert v[r'] == B[r - a - lm] == u[r];
        }
      }
    }
    var top := if r >= 0 then r' else hi';
    forall k | lo' <= k < top
      ensures v[k] != c
    {
      if k < a {
        assert v[k] == A[k] == u[k];
      } else if k < a + lw {
        assert v[k] == w[k - a];
      } else {
        assert v[k] == B[k - a - lw] == u[k - lw + lm];
      }
    }
    IndexOfCharIs(v, c, lo', hi', r');
  }

  /** The characters of an occurrence are those of the pattern. */
  lemma {:induction false} OccursChar(s: string, p: string, k: int, j: nat)
    requires OccursAt(s, p, k) && j < |p|
    ensures s[k + j] == p[j]
  {
    MatchesChar(s, p, k, 0, j);
  }

  lemma {:induction false} MatchesChar(s: string, p: string, k: nat, i: nat, j: nat)
    requires k + |p| <= |s| && i <= j < |p| && MatchesFrom(s, p, k, i)
    ensures s[k + j] == p[j]
    decreases j - i
  {
    if i < j {
      MatchesChar(s, p, k, i + 1, j);
    }
  }

  /** Occurrences are decided by the characters they cover. */
  lemma SameCover(s: string, t: string, p: string, k: nat, l: nat)
    requires k + |p| <= |s| && l + |p| <= |t|
    requires s[k..k + |p|] == t[l..l + |p|]
    ensures OccursAt(s, p, k) == OccursAt(t, p, l)
  {
    OccursAtIsSlice(s, p, k);
    OccursAtIsSlice(t, p, l);
  }

  /** No `Math.Pow` overlaps an inert middle part. */
  lemma PowOutside(A: string, m: string, B: string, k: int)
    requires AllInert(m) && (|m| > 0 || |A| == 0 || |B| == 0)
    requires OccursAt(A + m + B, POW, k)
    ensures k + |POW| <= |A| || |A| + |m| <= k
  {
    var u := A + m + B;
    if |A| < k + |POW| && k < |A| + |m| {
      var q := if k < |A| then |A| else k;
      OccursChar(u, POW, k, q - k);
      assert false;
    }
  }

  /** An occurrence outside the middle part is one in both strings. */
  lemma PowSplice(A: string, m: string, w: string, B: string, k: nat)
    requires k + |POW| <= |A| || (|A| + |m| <= k && k + |POW| <= |A| + |m| + |B|)
    ensures OccursAt(A + m + B, POW, k) == OccursAt(A + w + B, POW, Shift(k, |A|, |m|, |w|))
  {
    var u, v := A + m + B, A + w + B;
    var k' := Shift(k, |A|, |m|, |w|);
    if k + |POW| <= |A| {
      assert u[k..k + |POW|] == A[k..k + |POW|] == v[k'..k' + |POW|];
    } else {
      var j := k - |A| - |m|;
      assert u[k..k + |POW|] == B[j..j + |POW|] == v[k'..k' + |POW|];
    }
    SameCover(u, v, POW, k, k');
  }

  /** Searching for `Math.Pow` finds corresponding positions before and
      after the splice. */
  lemma IndexOfPowSplice(A: string, m: string, w: string, B: string, from: nat, from': nat)
    requires AllInert(m) && AllInert(w)
    requires (|m| > 0 && |w| > 0) || |A| == 0 || |B| == 0
    requires from <= |A| + |m| + |B|
    requires Corr(from, from', |A|, |m|, |w|)
    ensures from' <= |A| + |w| + |B|
    ensures IndexOfSub(A + w + B, POW, from')
            == Shift(IndexOfSub(A + m + B, POW, from), |A|, |m|, |w|)
  {
    // `hide` keeps the searches' bodies out of the proof, so only their
    // contracts are used; this keeps each step small.
    hide IndexOfSub, MatchesFrom;
    var u, v := A + m + B, A + w + B;
    var a, lm, lw := |A|, |m|, |w|;
    var r := IndexOfSub(u, POW, from);
    IndexOfSubFirst(u, POW, from);
    var r' := Shift(r, a, lm, lw);
    if r >= 0 {
      PowOutside(A, m, B, r);
      PowSplice(A, m, w, B, r);
    }
    forall k | from' <= k && (r >= 0 ==> k < r')
      ensures !OccursAt(v, POW, k)
    {
      if OccursAt(v, POW, k) {
        PowOutside(A, w, B, k);
        var k0 := if k < a then k else k - lw + lm;
        PowSplice(A, m, w, B, k0);
        assert false;
      }
    }
    IndexOfSubIs(v, POW, from', r');
  }

  /** The restoring `Math.Pow` pass commutes with the splice: when it
      succeeds on `A + m + B` with `A2 + m + B2`, it succeeds on `A + w + B`
      with `A2 + w + B2`, and it fails on both alike. */
  lemma {:induction false} PowPassSplice(A: string, m: string, w: string, B: string, from: nat, from': nat)
    returns (A2: string, B2: string)
    requires AllInert(m) && AllInert(w)
    requires (|m| > 0 && |w| > 0) || |A| == 0 || |B| == 0
    requires from <= |A| + |m| + |B| && Corr(from, from', |A|, |m|, |w|)
    ensures from' <= |A| + |w| + |B|
    ensures |A2| == |A| && |B2| == |B|
    ensures PowPass(A + m + B, from, ';', ',').Ok? ==>
              PowPass(A + m + B, from, ';', ',') == Ok(A2 + m + B2)
              && PowPass(A + w + B, from', ';', ',') == Ok(A2 + w + B2)
    ensures PowPass(A + m + B, from, ';', ',').Fail? ==>
              PowPass(A + w + B, from', ';', ',') == PowPass(A + m + B, from, ';', ',')
    decreases |A| + |m| + |B| - from, 1
  {
    hide PowPass, IndexOfSub, IndexOfChar;
    var u, v := A + m + B, A + w + B;
    var index := IndexOfSub(u, POW, from);
    IndexOfPowSplice(A, m, w, B, from, from');
    if index < 0 {
      ConditionalProofs.PowPassDone(u, from, ';', ',');
      ConditionalProofs.PowPassDone(v, from', ';', ',');
      A2, B2 := A, B;
    } else {
      var index' := Shift(index, |A|, |m|, |w|);
      PowOutside(A, m, B, index);
      var comma := IndexOfChar(u, ';', index, |u|);
      IndexOfCharSplice(A, m, w, B, ';', index, index', |u|);
      if comma < 0 {
        ConditionalProofs.PowPassStuck(u, from, ';', ',', index);
        ConditionalProofs.PowPassStuck(v, from', ';', ',', index');
        A2, B2 := A, B;
      } else {
        A2, B2 := PowRoundSplice(A, m, w, B, from, from', index, comma);
      }
    }
  }

  /** `A` with a comma at `c`, when `c` falls inside it. */
  function CommaAt(A: string, c: int): (r: string)
    ensures |r| == |A|
  {
    if 0 <= c < |A| then A[c := ','] else A
  }

  /** One step of the restoring `Math.Pow` pass over `A + m + B`, with the
      separator it turns back into a comma outside `m`. */
  lemma PowStepSide(A: string, m: string, B: string, from: nat, index: nat, comma: nat)
    requires from <= |A| + |m| + |B|
    requires index == IndexOfSub(A + m + B, POW, from)
    requires comma == IndexOfChar(A + m + B, ';', index, |A| + |m| + |B|)
    requires comma < |A| || |A| + |m| <= comma
    ensures PowPass(A + m + B, from, ';', ',')
            == PowPass(CommaAt(A, comma) + m + CommaAt(B, comma - |A| - |m|), index + 1, ';', ',')
  {
    var u := A + m + B;
    assert u[comma := ','] == CommaAt(A, comma) + m + CommaAt(B, comma - |A| - |m|);
    ConditionalProofs.PowPassStep(u, from, ';', ',', index, comma);
  }

  /** One step of the restoring `Math.Pow` pass on both sides of the
      splice: the same comma is put back, in `A` or in `B`. */
  lemma PowStepSplice(A: string, m: string, w: string, B: string, from: nat, from': nat,
                      index: nat, comma: nat)
    returns (A2: string, B2: string)
    requires from <= |A| + |m| + |B| && from' <= |A| + |w| + |B|
    requires index == IndexOfSub(A + m + B, POW, from)
    requires Shift(index, |A|, |m|, |w|) == IndexOfSub(A + w + B, POW, from')
    requires index + |POW| <= |A| || |A| + |m| <= index
    requires comma == IndexOfChar(A + m + B, ';', index, |A| + |m| + |B|)
    requires Shift(comma, |A|, |m|, |w|) == IndexOfChar(A + w + B, ';', Shift(index, |A|, |m|, |w|), |A| + |w| + |B|)
    requires Outside(comma, |A|, |m|)
    ensures |A2| == |A| && |B2| == |B|
    ensures index + 1 <= |A| + |m| + |B| && Corr(index + 1, Shift(index, |A|, |m|, |w|) + 1, |A|, |m|, |w|)
    ensures PowPass(A + m + B, from, ';', ',') == PowPass(A2 + m + B2, index + 1, ';', ',')
    ensures PowPass(A + w + B, from', ';', ',') == PowPass(A2 + w + B2, Shift(index, |A|, |m|, |w|) + 1, ';', ',')
  {
    hide PowPass, IndexOfSub, IndexOfChar;
    var index', comma' := Shift(index, |A|, |m|, |w|), Shift(comma, |A|, |m|, |w|);
    PowStepSide(A, m, B, from, index, comma);
    if comma < |A| {
      assert comma' == comma;
    } else {
      assert comma' - |A| - |w| == comma - |A| - |m|;
    }
    PowStepSide(A, w, B, from', index', comma');
    A2, B2 := CommaAt(A, comma), CommaAt(B, comma - |A| - |m|);
  }

  /** One round of the restoring `Math.Pow` pass, on both sides of the
      splice: the separator at `comma` becomes a comma. */
  lemma {:induction false} PowRoundSplice(A: string, m: string, w: string, B: string, from: nat, from': nat,
                                          index: nat, comma: nat)
    returns (A2: string, B2: string)
    requires AllInert(m) && AllInert(w)
    requires (|m| > 0 && |w| > 0) || |A| == 0 || |B| == 0
    requires from <= |A| + |m| + |B| && from' <= |A| + |w| + |B|
    requires index == IndexOfSub(A + m + B, POW, from)
    requires Shift(index, |A|, |m|, |w|) == IndexOfSub(A + w + B, POW, from')
    requires index + |POW| <= |A| || |A| + |m| <= index
    requires comma == IndexOfChar(A + m + B, ';', index, |A| + |m| + |B|)
    requires Shift(comma, |A|, |m|, |w|) == IndexOfChar(A + w + B, ';', Shift(index, |A|, |m|, |w|), |A| + |w| + |B|)
    ensures |A2| == |A| && |B2| == |B|
    ensures PowPass(A + m + B, from, ';', ',').Ok? ==>
              PowPass(A + m + B, from, ';', ',') == Ok(A2 + m + B2)
              && PowPass(A + w + B, from', ';', ',') == Ok(A2 + w + B2)
    ensures PowPass(A + m + B, from, ';', ',').Fail? ==>
              PowPass(A + w + B, from', ';', ',') == PowPass(A + m + B, from, ';', ',')
    decreases |A| + |m| + |B| - from, 0
  {
    hide PowPass, IndexOfSub, IndexOfChar;
    var A', B' := PowStepSplice(A, m, w, B, from, from', index, comma);
    A2, B2 := PowPassSplice(A', m, w, B', index + 1, Shift(index, |A|, |m|, |w|) + 1);
  }

  /** One step of the restoring `[` pass over `A + m + B`, with the
      separator it turns back into a comma (if any) outside `m`. */
  lemma BracketStepSide(A: string, m: string, B: string, from: nat, b: nat, e: int, comma: int)
    requires from <= |A| + |m| + |B|
    requires b == IndexOfChar(A + m + B, '[', from, |A| + |m| + |B|)
    requires e == IndexOfChar(A + m + B, ']', b, |A| + |m| + |B|)
    requires comma == if e >= 0 then IndexOfChar(A + m + B, ';', b, e) else -1
    requires Outside(comma, |A|, |m|)
    ensures BracketPass(A + m + B, from, ';', ',')
            == BracketPass(CommaAt(A, comma) + m + CommaAt(B, comma - |A| - |m|), b + 1, ';', ',')
  {
    var u := A + m + B;
    var next := if comma >= 0 then u[comma := ','] else u;
    assert next == CommaAt(A, comma) + m + CommaAt(B, comma - |A| - |m|);
    ConditionalProofs.BracketPassStep(u, from, ';', ',', b, e, next);
  }

  /** The restoring `[` pass commutes with the splice: it turns `A + m + B`
      into `A2 + m + B2` and `A + w + B` into `A2 + w + B2`. */
  lemma {:induction false} BracketPassSplice(A: string, m: string, w: string, B: string, from: nat, from': nat)
    returns (A2: string, B2: string)
    requires AllInert(m) && AllInert(w)
    requires from <= |A| + |m| + |B| && Corr(from, from', |A|, |m|, |w|)
    ensures from' <= |A| + |w| + |B|
    ensures |A2| == |A| && |B2| == |B|
    ensures BracketPass(A + m + B, from, ';', ',') == A2 + m + B2
    ensures BracketPass(A + w + B, from', ';', ',') == A2 + w + B2
    decreases |A| + |m| + |B| - from, 1
  {
    hide BracketPass, IndexOfChar;
    var u, v := A + m + B, A + w + B;
    var b := IndexOfChar(u, '[', from, |u|);
    IndexOfCharSplice(A, m, w, B, '[', from, from', |u|);
    if b < 0 {
      ConditionalProofs.BracketPassDone(u, from, ';', ',');
      ConditionalProofs.BracketPassDone(v, from', ';', ',');
      A2, B2 := A, B;
    } else {
      A2, B2 := BracketRoundSplice(A, m, w, B, from, from', b);
    }
  }

  /** One round of the restoring `[` pass, on both sides of the splice. */
  lemma {:induction false} BracketRoundSplice(A: string, m: string, w: string, B: string, from: nat, from': nat,
                                              b: nat)
    returns (A2: string, B2: string)
    requires AllInert(m) && AllInert(w)
    requires from <= |A| + |m| + |B| && from' <= |A| + |w| + |B|
    requires b == IndexOfChar(A + m + B, '[', from, |A| + |m| + |B|)
    requires Shift(b, |A|, |m|, |w|) == IndexOfChar(A + w + B, '[', from', |A| + |w| + |B|)
    ensures |A2| == |A| && |B2| == |B|
    ensures BracketPass(A + m + B, from, ';', ',') == A2 + m + B2
    ensures BracketPass(A + w + B, from', ';', ',') == A2 + w + B2
    decreases |A| + |m| + |B| - from, 0
  {
    hide BracketPass, IndexOfChar;
    var u, v := A + m + B, A + w + B;
    var b' := Shift(b, |A|, |m|, |w|);
    assert Outside(b, |A|, |m|);
    var e := IndexOfChar(u, ']', b, |u|);
    IndexOfCharSplice(A, m, w, B, ']', b, b', |u|);
    var comma := -1;
    if e >= 0 {
      assert Outside(e, |A|, |m|);
      comma := IndexOfChar(u, ';', b, e);
      IndexOfCharSplice(A, m, w, B, ';', b, b', e);
    }
    var A', B' := BracketStepSplice(A, m, w, B, from, from', b, e, comma);
    A2, B2 := BracketPassSplice(A', m, w, B', b + 1, b' + 1);
  }

  /** One step of the restoring `[` pass on both sides of the splice: the
      same comma, if any, is put back in `A` or in `B`. */
  lemma BracketStepSplice(A: string, m: string, w: string, B: string, from: nat, from': nat,
                          b: nat, e: int, comma: int)
    returns (A2: string, B2: string)
    requires from <= |A| + |m| + |B| && from' <= |A| + |w| + |B|
    requires b == IndexOfChar(A + m + B, '[', from, |A| + |m| + |B|)
    requires Shift(b, |A|, |m|, |w|) == IndexOfChar(A + w + B, '[', from', |A| + |w| + |B|)
    requires Outside(b, |A|, |m|)
    requires e == IndexOfChar(A + m + B, ']', b, |A| + |m| + |B|)
    requires Shift(e, |A|, |m|, |w|) == IndexOfChar(A + w + B, ']', Shift(b, |A|, |m|, |w|), |A| + |w| + |B|)
    requires e >= 0 ==> Outside(e, |A|, |m|)
    requires comma == if e >= 0 then IndexOfChar(A + m + B, ';', b, e) else -1
    requires e >= 0 ==> Shift(comma, |A|, |m|, |w|)
                        == IndexOfChar(A + w + B, ';', Shift(b, |A|, |m|, |w|), Shift(e, |A|, |m|, |w|))
    requires Outside(comma, |A|, |m|)
    ensures |A2| == |A| && |B2| == |B|
    ensures b + 1 <= |A| + |m| + |B| && Corr(b + 1, Shift(b, |A|, |m|, |w|) + 1, |A|, |m|, |w|)
    ensures BracketPass(A + m + B, from, ';', ',') == BracketPass(A2 + m + B2, b + 1, ';', ',')
    ensures BracketPass(A + w + B, from', ';', ',') == BracketPass(A2 + w + B2, Shift(b, |A|, |m|, |w|) + 1, ';', ',')
  {
    hide BracketPass, IndexOfChar;
    var b', e' := Shift(b, |A|, |m|, |w|), Shift(e, |A|, |m|, |w|);
    var comma' := if e >= 0 then Shift(comma, |A|, |m|, |w|) else -1;
    BracketStepSide(A, m, B, from, b, e, comma);
    if comma < |A| {
      assert CommaAt(A, comma') == CommaAt(A, comma);
    } else {
      assert comma' - |A| - |w| == comma - |A| - |m|;
    }
    BracketStepSide(A, w, B, from', b', e', comma');
    A2, B2 := CommaAt(A, comma), CommaAt(B, comma - |A| - |m|);
  }

  /** Restoring commutes with the splice: when `Restore` turns `A + m + B`
      into `A2 + m + B2`, it turns `A + w + B` into `A2 + w + B2`, and it
      fails on both alike. */
  lemma RestoreSplice(A: string, m: string, w: string, B: string) returns (A2: string, B2: string)
    requires AllInert(m) && AllInert(w)
    requires (|m| > 0 && |w| > 0) || |A| == 0 || |B| == 0
    ensures |A2| == |A| && |B2| == |B|
    ensures Restore(A + m + B).Ok? ==>
              Restore(A + m + B) == Ok(A2 + m + B2) && Restore(A + w + B) == Ok(A2 + w + B2)
    ensures Restore(A + m + B).Fail? ==> Restore(A + w + B) == Restore(A + m + B)
  {
    hide PowPass, BracketPass;
    var P, Q := PowPassSplice(A, m, w, B, 0, 0);
    if PowPass(A + m + B, 0, ';', ',').Ok? {
      A2, B2 := BracketPassSplice(P, m, w, Q, 0, 0);
    } else {
      A2, B2 := A, B;
    }
  }

  lemma ParensInert()
    ensures AllInert("") && AllInert("(") && AllInert(")")
  {
    assert '(' !in POW && ')' !in POW;
  }

  /** Restoring commutes with putting `(` in front. */
  lemma RestorePrepend(t: string, r: string)
    requires Restore(t) == Ok(r)
    ensures Restore("(" + t) == Ok("(" + r)
  {
    hide Restore, AllInert;
    ParensInert();
    var A2, B2 := RestoreSplice([], [], "(", t);
    assert [] + [] + t == t;
    assert A2 == [];
    assert [] + "(" + t == "(" + t;
    assert B2 == r;
    assert A2 + "(" + B2 == "(" + r;
  }

  /** Restoring commutes with putting `)` at the end. */
  lemma RestoreAppend(t: string, r: string)
    requires Restore(t) == Ok(r)
    ensures Restore(t + ")") == Ok(r + ")")
  {
    hide Restore, AllInert;
    ParensInert();
    var A2, B2 := RestoreSplice(t, "", ")", "");
    assert t + "" + "" == t;
    assert t + ")" + "" == t + ")";
    assert B2 == "";
    assert r == A2 by { assert r == A2 + "" + B2; }
    assert A2 + ")" + B2 == r + ")";
  }

  /** Restoring commutes with replacing a comma by inert text: the comma
      survives at the same place, and the text takes its place. */
  lemma RestoreReplace(A: string, B: string, w: string, r: string)
    requires AllInert(w) && |w| > 0
    requires Restore(A + "," + B) == Ok(r)
    ensures |A| < |r| && r[|A|] == ','
    ensures Restore(A + w + B) == Ok(r[..|A|] + w + r[|A| + 1..])
  {
    hide Restore;
    var A2, B2 := RestoreSplice(A, ",", w, B);
    assert r == A2 + "," + B2;
    assert r[..|A|] == A2;
    assert r[|A| + 1..] == B2;
  }

  /** The opening of the ternary: `(` in front, ` ? (` for the first comma. */
  lemma TernaryOpen(p0: string, rest: string, s: string)
    requires Restore(p0 + "," + rest) == Ok(s)
    ensures |p0| < |s| && s[|p0|] == ','
    ensures Restore("(" + p0 + " ? (" + rest) == Ok("(" + s[..|p0|] + " ? (" + s[|p0| + 1..])
  {
    var t := p0 + "," + rest;
    RestorePrepend(t, s);
    assert "(" + t == ("(" + p0) + "," + rest;
    RestoreReplace("(" + p0, rest, " ? (", "(" + s);
    assert ("(" + s)[..|p0| + 1] == "(" + s[..|p0|];
    assert ("(" + s)[|p0| + 2..] == s[|p0| + 1..];
    assert ("(" + p0) + " ? (" + rest == "(" + p0 + " ? (" + rest;
  }

  /** The closing of the ternary: ` ) : ` for the second comma, `)` at the
      end. */
  lemma TernaryClose(A: string, p2: string, r: string)
    requires Restore(A + "," + p2) == Ok(r)
    ensures |A| < |r| && r[|A|] == ','
    ensures Restore(A + ") : " + p2 + ")") == Ok(r[..|A|] + ") : " + r[|A| + 1..] + ")")
  {
    RestoreReplace(A, p2, ") : ", r);
    RestoreAppend(A + ") : " + p2, r[..|A|] + ") : " + r[|A| + 1..]);
  }

  /** Restoring the ternary of three pieces restores the ternary of the
      pieces of what restoring their comma-join gives: the two joining
      commas come back at their places and split the restored text. */
  lemma TernaryRestore(p0: string, p1: string, p2: string, s: string)
    requires Restore(p0 + "," + p1 + "," + p2) == Ok(s)
    ensures var i, j := |p0|, |p0| + 1 + |p1|;
            j < |s| && s[i] == ',' && s[j] == ','
            && Restore(Ternary(p0, p1, p2)) == Ok(Ternary(s[..i], s[i + 1..j], s[j + 1..]))
  {
    hide Restore;
    var i, j := |p0|, |p0| + 1 + |p1|;
    assert p0 + "," + p1 + "," + p2 == p0 + "," + (p1 + "," + p2);
    TernaryOpen(p0, p1 + "," + p2, s);
    var A := "(" + p0 + " ? (" + p1;
    var r := "(" + s[..i] + " ? (" + s[i + 1..];
    assert "(" + p0 + " ? (" + (p1 + "," + p2) == A + "," + p2;
    TernaryClose(A, p2, r);
    assert r[|A|] == s[j];
    assert Ternary(p0, p1, p2) == A + ") : " + p2 + ")";
    assert r[..|A|] == "(" + s[..i] + " ? (" + s[i + 1..j];
    assert r[|A| + 1..] == s[j + 1..];
  }

  /** Three pieces joined by commas. */
  lemma JoinThree(parts: seq<string>)
    requires |parts| == 3
    ensures Join([','], parts) == parts[0] + "," + parts[1] + "," + parts[2]
  {
    assert parts[1..][1..] == [parts[2]];
    assert Join([','], parts[1..]) == parts[1] + "," + parts[2];
    assert Join([','], parts) == parts[0] + "," + (parts[1] + "," + parts[2]);
  }

  /** The `if` rewrite of a fragment without `;`: it succeeds exactly when
      hiding succeeds and leaves three comma-separated pieces, and then its
      result is the ternary of the fragment's own text, cut at the two
      commas that separate those pieces. */
  lemma IfRewriteIsTernary(s: string)
    requires ';' !in s
    ensures IfRewrite(s).Ok? <==> Substitute(s).Ok? && |Split(Substitute(s).value, ',')| == 3
    ensures IfRewrite(s).Ok? ==>
              var parts := Split(Substitute(s).value, ',');
              var i, j := |parts[0]|, |parts[0]| + 1 + |parts[1]|;
              j < |s| && s[i] == ',' && s[j] == ','
              && IfRewrite(s) == Ok(Ternary(s[..i], s[i + 1..j], s[j + 1..]))
  {
    hide Substitute, Restore, Split, Join, Ternary;
    if Substitute(s).Ok? && |Split(Substitute(s).value, ',')| == 3 {
      var t := Substitute(s).value;
      var parts := Split(t, ',');
      ConditionalProofs.RestoreSubstitute(s);
      JoinThree(parts);
      TernaryRestore(parts[0], parts[1], parts[2], s);
    }
  }

  /** A fragment without `[` and without `Math.Pow` is left as it is by the
      substitution. */
  lemma PlainSubstitute(s: string)
    requires '[' !in s
    requires forall k :: !OccursAt(s, POW, k)
    ensures Substitute(s) == Ok(s)
  {
    hide PowPass, BracketPass, IndexOfSub, IndexOfChar;
    IndexOfSubIs(s, POW, 0, -1);
    ConditionalProofs.PowPassDone(s, 0, ',', ';');
    IndexOfCharIs(s, '[', 0, |s|, -1);
    ConditionalProofs.BracketPassDone(s, 0, ',', ';');
  }

  /** For plain fragments (no commas, semicolons, brackets or `Math.Pow`
      of their own) the rewrite of `if(c, t, e)` is the ternary of the
      three items, each branch keeping the blank the `", "` join put in
      front of it. */
  lemma IfOfPlainParts(c: string, t: string, e: string)
    requires forall ch :: ch in {',', ';', '['} ==> ch !in c && ch !in t && ch !in e
    requires forall k :: !OccursAt(c + ", " + t + ", " + e, POW, k)
    ensures IfRewrite(c + ", " + t + ", " + e) == Ok("(" + c + " ? ( " + t + ") :  " + e + ")")
  {
    hide Substitute, Restore, Split, PowPass, BracketPass, IndexOfSub, IndexOfChar;
    var s := c + ", " + t + ", " + e;
    var items := [c, " " + t, " " + e];
    assert ';' !in s && '[' !in s;
    PlainSubstitute(s);
    assert items[1..][1..] == [" " + e];
    assert Join([','], items[1..]) == (" " + t) + [','] + (" " + e);
    assert Join([','], items) == c + [','] + ((" " + t) + [','] + (" " + e));
    assert Join([','], items) == s;
    SplitJoin(items, ',');
    IfRewriteIsTernary(s);
    var i, j := |c|, |c| + 1 + |" " + t|;
    assert s[..i] == c;
    assert s[i + 1..j] == " " + t;
    assert s[j + 1..] == " " + e;
    assert Ternary(c, " " + t, " " + e) == "(" + c + " ? ( " + t + ") :  " + e + ")";
  }
}

=== FILE: statements.dfy ===
/** The statement translators of xmcd2cs/Parser.cs: definitions, evaluations,
    functions, ranges, unit overrides, results, matrices, programs and
    guarded returns.

    A translator that appends to a `StringBuilder` returns the sequence of
    strings it appends, one per `AppendLine`. Where the source embeds the text
    of a nested builder in a line (a matrix or a program on the right of a
    definition), the model embeds `Block` of its lines.
 */
module Statements {
  import opened Results
  import opened Strings
  import opened Xml
  import opened Translator

  /** `ParseFunction`: the method signature `public double f(double a,double b)`
      for a `function(id, boundVars)` node. */
  function ParseFunction(n: Node): (r: Result<string>)
    ensures r.Ok? ==> |n.children| == 2 && IsMl(n.children[0], "id")
                      && IsMl(n.children[1], "boundVars")
    ensures (!(|n.children| == 2 && IsMl(n.children[0], "id") && IsMl(n.children[1], "boundVars"))
             ==> r == Fail("Unknown function"))
  {
    if |n.children| == 2 && IsMl(n.children[0], "id") && IsMl(n.children[1], "boundVars") then
      var name := GetValue(n.children[0]).value;
      var params :- BoundVarList(n.children[1], 0);
      var open := "public double " + name + "(" + params;
      // `func.Remove(func.Length - 1, 1)` drops the last character
      Ok(open[..|open| - 1] + ")")
    else
      Fail("Unknown function")
  }

  /** The `double v,` pieces of the bound variables from index `i` on. */
  function BoundVarList(b: Node, i: nat): (r: Result<string>)
    requires i <= |b.children|
    decreases |b.children| - i
  {
    if i == |b.children| then Ok("")
    else
      var v :- GetValue(b.children[i]);
      var rest :- BoundVarList(b, i + 1);
      Ok("double " + v + "," + rest)
  }

  /** `ParseRange`: `Enumerable.Range(start, count)` for a `range(real, bound)`. */
  function ParseRange(n: Node): (r: Result<string>)
    ensures r.Ok? ==> |n.children| == 2 && IsMl(n.children[0], "real")
                      && (IsMl(n.children[1], "parens") || IsMl(n.children[1], "id"))
  {
    var ch := n.children;
    if |ch| == 2 && IsMl(ch[0], "real") && IsMl(ch[1], "parens") then
      var bound :- ParseParens(ch[1]);
      var start := GetValue(ch[0]).value;
      Ok("Enumerable.Range(" + start + ", " + bound + " - " + start + ")")
    else if |ch| == 2 && IsMl(ch[0], "real") && IsMl(ch[1], "id") then
      var start := GetValue(ch[0]).value;
      var bound := GetValue(ch[1]).value;
      Ok("Enumerable.Range(" + start + ", " + bound + ")")
    else
      Fail("Unknown function")
  }

  /** `ParseUnitOverride`: the fragment of the single apply or id child. */
  function ParseUnitOverride(n: Node): (r: Result<string>)
    ensures r.Ok? ==> |n.children| == 1 && (IsMl(n.children[0], "apply") || IsMl(n.children[0], "id"))
  {
    if |n.children| == 1 && IsMl(n.children[0], "apply") then ParseApply(n.children[0])
    else if |n.children| == 1 && IsMl(n.children[0], "id") then GetValue(n.children[0])
    else Fail("Unknown unit override")
  }

  /** `ParseResult`: the number a result shows; a united value keeps its
      number and drops its unit. */
  function ParseResult(n: Node): (r: Result<string>)
    ensures r.Ok? ==> |n.children| == 1 && n.children[0].ns == ML
                      && n.children[0].local in {"unitedValue", "real", "matrix"}
  {
    var ch := n.children;
    if |ch| == 1 && IsMl(ch[0], "unitedValue") then
      var inner := ch[0].children;
      if |inner| == 2 && IsMl(inner[0], "real") && Named(inner[1], UNITS, "unitMonomial") then
        GetValue(inner[0])
      else
        Fail("Unknown unitedValue")
    else if |ch| == 1 && IsMl(ch[0], "real") then
      GetValue(ch[0])
    else if |ch| == 1 && IsMl(ch[0], "matrix") then
      var lines :- ParseMatrix(ch[0]);
      Ok(Block(lines))
    else
      Fail("Unknown result")
  }

  /** A `rows` / `cols` attribute: 0 when absent, otherwise its number. */
  function Dimension(n: Node, name: string): (r: Result<nat>)
    ensures name !in n.attrs ==> r == Ok(0)
    ensures name in n.attrs ==> (r.Ok? <==> IsDigits(n.attrs[name]))
    ensures name in n.attrs && IsDigits(n.attrs[name]) ==> r == Ok(DigitsValue(n.attrs[name]))
    ensures name in n.attrs && !IsDigits(n.attrs[name]) ==> r == Fail("Input string was not in a correct format.")
  {
    if name !in n.attrs then Ok(0)
    else match ParseNat(n.attrs[name])
      case Some(v) => Ok(v)
      case None => Fail("Input string was not in a correct format.")
  }

  /** The assignment target of flat cell `i` in a matrix with `rows` rows. */
  function CellTarget(i: nat, rows: nat): string
    requires rows > 0
  {
    "matrix[" + NatToString(i % rows) + ", " + NatToString(i / rows) + "] = "
  }

  /** `ParseMatrix`: a `Dense(rows, cols)` construction, then one assignment
      per child, column-major. */
  function ParseMatrix(n: Node): (r: Result<seq<string>>)
    ensures r.Ok? ==> |r.value| == |n.children| + 1
  {
    var rows :- Dimension(n, "rows");
    var cols :- Dimension(n, "cols");
    var cells :- MatrixCells(n, rows, 0);
    Ok(["matrix = Matrix<double>.Build.Dense(" + NatToString(rows) + ", " + NatToString(cols) + ");"]
       + cells)
  }

  /** The assignment lines of the matrix children from index `i` on. */
  function MatrixCells(n: Node, rows: nat, i: nat): (r: Result<seq<string>>)
    requires i <= |n.children|
    ensures r.Ok? ==> |r.value| == |n.children| - i
    decreases |n.children| - i
  {
    if i == |n.children| then Ok([])
    else
      var line :- MatrixCell(n.children[i], rows, i);
      var rest :- MatrixCells(n, rows, i + 1);
      Ok([line] + rest)
  }

  /** The assignment line of one matrix child at flat index `i`. The index
      arithmetic comes first in the interpolated string, so a zero row count
      throws before the child is looked at. */
  function MatrixCell(c: Node, rows: nat, i: nat): (r: Result<string>)
    ensures r.Ok? ==> rows > 0 && c.ns == ML && c.local in {"real", "complex", "apply", "parens"}
    ensures r.Ok? ==> StartsWith(r.value, CellTarget(i, rows))
  {
    if IsMl(c, "real") || IsMl(c, "complex") || IsMl(c, "apply") || IsMl(c, "parens") then
      if rows == 0 then Fail("Attempted to divide by zero.")
      else
        var target := CellTarget(i, rows);
        var v :-
          if IsMl(c, "real") then GetValue(c)
          else if IsMl(c, "complex") then
            match (FirstChildNamed(c, ML, "real"), FirstChildNamed(c, ML, "imag"))
            case (Some(re), Some(im)) => Ok("new Complex(" + re.text + ", " + im.text + ")")
            case _ => Fail("Object reference not set to an instance of an object.")
          else if IsMl(c, "apply") then ParseApply(c)
          else ParseParens(c);
        assert (target + v + ";")[..|target|] == target;
        Ok(target + v + ";")
    else
      Fail("Unknown matrix element")
  }

  /** `ParseProgram`: one appended entry per statement child. */
  function ParseProgram(n: Node): (r: Result<seq<string>>)
    ensures r.Ok? ==> |r.value| == |n.children|
    decreases n, 2, 0
  {
    ProgramItems(n, 0)
  }

  /** The entries of the program statements from index `i` on. */
  function ProgramItems(n: Node, i: nat): (r: Result<seq<string>>)
    requires i <= |n.children|
    ensures r.Ok? ==> |r.value| == |n.children| - i
    ensures r.Ok? ==> forall k :: i <= k < |n.children| ==>
              IsMl(n.children[k], "ifThen") || IsMl(n.children[k], "apply")
    decreases n, 1, |n.children| - i
  {
    if i == |n.children| then Ok([])
    else
      var c := n.children[i];
      var entry :-
        if IsMl(c, "ifThen") then
          var lines :- ParseIfThen(c);
          Ok(Block(lines))
        else if IsMl(c, "apply") then ParseApply(c)
        else Fail("Unknown program");
      var rest :- ProgramItems(n, i + 1);
      Ok([entry] + rest)
  }

  /** `ParseIfThen`: a guarded early return `if(cond) { return value; }`. */
  function ParseIfThen(n: Node): (r: Result<seq<string>>)
    ensures r.Ok? ==> |r.value| == 4 && r.value[1] == "{" && r.value[3] == "}"
    decreases n, 3, 0
  {
    var ch := n.children;
    if |ch| == 2 && IsMl(ch[0], "apply") && IsMl(ch[1], "real") then
      var cond :- ParseApply(ch[0]);
      var v := GetValue(ch[1]).value;
      Ok(["if(" + cond + ")", "{", "return " + v + ";", "}"])
    else if |ch| == 2 && IsMl(ch[0], "apply") && IsMl(ch[1], "program") then
      var cond :- ParseApply(ch[0]);
      var body :- ParseProgram(ch[1]);
      Ok(["if(" + cond + ")", "{", "return " + Block(body) + ";", "}"])
    else
      Fail("Unknown ifthen")
  }

  /** The (first child, second child) kinds a `define` accepts. */
  const DefineShapes: set<(string, string)> :=
    {("id", "real"), ("id", "id"), ("id", "apply"), ("function", "apply"),
     ("function", "parens"), ("id", "range"), ("id", "matrix"), ("id", "program"),
     ("id", "parens"), ("apply", "apply"), ("apply", "parens"), ("apply", "program")}

  /** The children of `n` are two math nodes whose kinds form a listed shape. */
  predicate HasShape(n: Node, shapes: set<(string, string)>) {
    |n.children| == 2 && n.children[0].ns == ML && n.children[1].ns == ML
    && (n.children[0].local, n.children[1].local) in shapes
  }

  /** `ParseDefinition`: the member lines of a `define` / `globalDefine`. */
  function ParseDefinition(n: Node): (r: Result<seq<string>>)
    ensures r.Ok? ==> HasShape(n, DefineShapes)
    ensures r.Ok? ==> |r.value| == if IsMl(n.children[0], "function") then 4 else 1
    ensures !HasShape(n, DefineShapes) ==> r == Fail("Unknown define")
  {
    var ch := n.children;
    if |ch| != 2 then Fail("Unknown define")
    else
      var (lhs, rhs) := (ch[0], ch[1]);
      if IsMl(lhs, "id") && IsMl(rhs, "real") then
        var name := GetValue(lhs).value;
        var v := GetValue(rhs).value;
        Ok(["public double " + name + " = " + v + ";"])
      else if IsMl(lhs, "id") && IsMl(rhs, "id") then
        var name := GetValue(lhs).value;
        var v := GetValue(rhs).value;
        Ok(["double " + name + " = " + v + ";"])
      else if IsMl(lhs, "id") && IsMl(rhs, "apply") then
        var body :- ParseApply(rhs);
        var name := GetValue(lhs).value;
        Ok(["public double " + name + " { get { return " + body + "; } }"])
      else if IsMl(lhs, "function") && IsMl(rhs, "apply") then
        var signature :- ParseFunction(lhs);
        var body :- ParseApply(rhs);
        Ok([signature, "{", "return " + body + ";", "}"])
      else if IsMl(lhs, "function") && IsMl(rhs, "parens") then
        var signature :- ParseFunction(lhs);
        var body :- ParseParens(rhs);
        Ok([signature, "{", "return " + body + ";", "}"])
      else if IsMl(lhs, "id") && IsMl(rhs, "range") then
        var range :- ParseRange(rhs);
        var name := GetValue(lhs).value;
        Ok(["public double " + name + " = " + range + ";"])
      else if IsMl(lhs, "id") && IsMl(rhs, "matrix") then
        var matrix :- ParseMatrix(rhs);
        var name := GetValue(lhs).value;
        Ok(["public var " + name + " = " + Block(matrix) + ";"])
      else if IsMl(lhs, "id") && IsMl(rhs, "program") then
        var program :- ParseProgram(rhs);
        var name := GetValue(lhs).value;
        Ok(["public double " + name + " = " + Block(program) + ";"])
      else if IsMl(lhs, "id") && IsMl(rhs, "parens") then
        var name := GetValue(lhs).value;
        var body :- ParseParens(rhs);
        Ok(["public double " + name + " { get { return " + body + "; } }"])
      else if IsMl(lhs, "apply") && IsMl(rhs, "apply") then
        var target :- ParseApply(lhs);
        var v :- ParseApply(rhs);
        Ok([target + "=" + v + ";"])
      else if IsMl(lhs, "apply") && IsMl(rhs, "parens") then
        var target :- ParseApply(lhs);
        var v :- ParseParens(rhs);
        Ok([target + "=" + v + ";"])
      else if IsMl(lhs, "apply") && IsMl(rhs, "program") then
        var target :- ParseApply(lhs);
        var program :- ParseProgram(rhs);
        Ok([target + "=" + Block(program) + ";"])
      else
        Fail("Unknown define")
  }

  /** `ParseEval`: the field line of an `eval`. */
  function ParseEval(n: Node): (r: Result<seq<string>>)
    ensures r.Ok? ==> |r.value| == 1
    ensures r.Ok? ==> 1 <= |n.children| <= 3 && (IsMl(n.children[0], "id") || IsMl(n.children[0], "apply"))
  {
    var ch := n.children;
    if |ch| == 3 && IsMl(ch[0], "id") && IsMl(ch[1], "unitOverride") && IsMl(ch[2], "result") then
      var unit :- ParseUnitOverride(ch[1]);
      var v :- ParseResult(ch[2]);
      var name := GetValue(ch[0]).value;
      Ok(["public double " + name + " = " + v + " " + unit + ";"])
    else if |ch| == 2 && IsMl(ch[0], "apply") && IsMl(ch[1], "result") then
      var target :- ParseApply(ch[0]);
      var v :- ParseResult(ch[1]);
      Ok(["public double " + target + " = " + v + ";"])
    else if |ch| == 2 && IsMl(ch[0], "id") && IsMl(ch[1], "result") then
      var v :- ParseResult(ch[1]);
      var name := GetValue(ch[0]).value;
      Ok(["public double " + name + " = " + v + ";"])
    else if |ch| == 3 && IsMl(ch[0], "apply") && IsMl(ch[1], "unitOverride") && IsMl(ch[2], "result") then
      var target :- ParseApply(ch[0]);
      var unit :- ParseUnitOverride(ch[1]);
      var v :- ParseResult(ch[2]);
      Ok(["public double " + target + " = " + v + " " + unit + ";"])
    else if |ch| == 1 && IsMl(ch[0], "id") then
      var name := GetValue(ch[0]).value;
      Ok(["public double " + name + " = 0;"])
    else
      Fail("Unknown eval")
  }
}

=== FILE: statements_properties.dfy ===
/** What the statement translators promise about the lines they append
    (xmcd2cs/Parser.cs:82-160 and 464-751).
 */
module StatementsProperties {
  import opened Results
  import opened Strings
  import opened Xml
  import opened Translator
  import opened Statements

  // ---------------------------------------------------------------------
  // Function signatures
  // ---------------------------------------------------------------------

  /** The value of a node whose value is known to exist. */
  function ValueOf(c: Node): string
    requires GetValue(c).Ok?
  {
    GetValue(c).value
  }

  /** Every bound variable from index `i` on has a value. */
  predicate BoundValues(b: Node, i: nat)
    requires i <= |b.children|
  {
    forall k :: i <= k < |b.children| ==> GetValue(b.children[k]).Ok?
  }

  /** The parameter declarations `double v` of the bound variables from
      index `i` on, in order. */
  function Params(b: Node, i: nat): (ps: seq<string>)
    requires i <= |b.children| && BoundValues(b, i)
    ensures |ps| == |b.children| - i
  {
    seq(|b.children| - i, k requires 0 <= k < |b.children| - i => "double " + ValueOf(b.children[i + k]))
  }

  /** The loop over the bound variables appends each declaration followed by
      a comma: the comma-join of the declarations, plus one trailing comma. */
  lemma {:induction false} BoundVarListJoins(b: Node, i: nat)
    requires i <= |b.children| && BoundValues(b, i)
    ensures BoundVarList(b, i).Ok?
    ensures i < |b.children| ==> BoundVarList(b, i).value == Join(",", Params(b, i)) + ","
    ensures i == |b.children| ==> BoundVarList(b, i).value == ""
    decreases |b.children| - i
  {
    // The translators' bodies are hidden so the proof uses only their
    // contracts; the one unfolding it needs comes from `BoundVarListStep`.
    hide GetValue, Join, BoundVarList;
    if i < |b.children| {
      BoundVarListJoins(b, i + 1);
      var ps := Params(b, i);
      var head := "double " + ValueOf(b.children[i]);
      var rest := BoundVarList(b, i + 1).value;
      assert ps[0] == head;
      BoundVarListStep(b, i);
      if i + 1 < |b.children| {
        var tail := Join(",", Params(b, i + 1));
        assert ps[1..] == Params(b, i + 1);
        JoinCons(",", ps);
        assert head + "," + (tail + ",") == (head + "," + tail) + ",";
      } else {
        JoinCons(",", ps);
        assert rest == [];
        assert head + "," + [] == head + ",";
      }
    } else {
      BoundVarListEnd(b);
    }
  }

  /** One unfolding of `BoundVarList`, proved on its own so that the
      induction above never unfolds the translators it calls. */
  lemma BoundVarListStep(b: Node, i: nat)
    requires i < |b.children| && GetValue(b.children[i]).Ok? && BoundVarList(b, i + 1).Ok?
    ensures BoundVarList(b, i) == Ok("double " + GetValue(b.children[i]).value + "," + BoundVarList(b, i + 1).value)
  {
    hide GetValue;
  }

  lemma BoundVarListEnd(b: Node)
    ensures BoundVarList(b, |b.children|) == Ok("")
  {
  }

  /** A function definition's signature declares one `double` parameter per
      bound variable, comma-separated, in order. With no bound variable the
      removal of the last character takes the opening parenthesis with it. */
  lemma FunctionSignature(n: Node)
    requires |n.children| == 2 && IsMl(n.children[0], "id") && IsMl(n.children[1], "boundVars")
    requires BoundValues(n.children[1], 0)
    ensures var name := ValueOf(n.children[0]);
            var b := n.children[1];
            (|b.children| > 0 ==>
               ParseFunction(n) == Ok("public double " + name + "(" + Join(",", Params(b, 0)) + ")"))
            && (|b.children| == 0 ==> ParseFunction(n) == Ok("public double " + name + ")"))
  {
    var name := ValueOf(n.children[0]);
    var b := n.children[1];
    BoundVarListJoins(b, 0);
    var params := BoundVarList(b, 0).value;
    var open := "public double " + name + "(" + params;
    if |b.children| > 0 {
      var joined := Join(",", Params(b, 0));
      assert open == ("public double " + name + "(" + joined) + ",";
      assert open[..|open| - 1] == "public double " + name + "(" + joined;
    } else {
      assert open == ("public double " + name) + "(";
      assert open[..|open| - 1] == "public double " + name;
    }
  }

  /** A bound variable without a value makes the signature fail. */
  lemma FunctionNeedsBoundValues(n: Node)
    requires |n.children| == 2 && IsMl(n.children[0], "id") && IsMl(n.children[1], "boundVars")
    ensures ParseFunction(n).Ok? <==> BoundValues(n.children[1], 0)
  {
    var b := n.children[1];
    if BoundValues(b, 0) {
      BoundVarListJoins(b, 0);
    } else {
      var k :| 0 <= k < |b.children| && GetValue(b.children[k]).Fail?;
      BoundVarListFails(b, 0, k);
    }
  }

  lemma {:induction false} BoundVarListFails(b: Node, i: nat, k: nat)
    requires i <= k < |b.children| && GetValue(b.children[k]).Fail?
    ensures BoundVarList(b, i).Fail?
    decreases k - i
  {
    if i < k && GetValue(b.children[i]).Ok? {
      BoundVarListFails(b, i + 1, k);
    }
  }

  // ---------------------------------------------------------------------
  // Matrices
  // ---------------------------------------------------------------------

  /** The target of cell `i` names row `i % rows` and column `i / rows`: it
      spells back the flat index, column-major. */
  lemma CellTargetDecodes(i: nat, rows: nat, r: nat, c: nat)
    requires rows > 0
    requires CellTarget(i, rows) == "matrix[" + NatToString(r) + ", " + NatToString(c) + "] = "
    ensures r < rows && i == c * rows + r
  {
    hide NatToString;
    SpelledPair(NatToString(i % rows), NatToString(i / rows), NatToString(r), NatToString(c));
    NatToStringInjective(i % rows, r);
    NatToStringInjective(i / rows, c);
  }

  /** Distinct cells are assigned to distinct positions. */
  lemma CellTargetInjective(i: nat, j: nat, rows: nat)
    requires rows > 0
    ensures CellTarget(i, rows) == CellTarget(j, rows) <==> i == j
  {
    hide NatToString;
    if CellTarget(i, rows) == CellTarget(j, rows) {
      CellTargetDecodes(j, rows, i % rows, i / rows);
    }
  }

  lemma NatToStringInjective(a: nat, b: nat)
    requires NatToString(a) == NatToString(b)
    ensures a == b
  {
    ParseNatToString(a);
    ParseNatToString(b);
  }

  /** Two digit strings around the fixed punctuation of a cell target are
      read back unambiguously. */
  lemma SpelledPair(a: string, b: string, a2: string, b2: string)
    requires IsDigits(a) && IsDigits(b) && IsDigits(a2) && IsDigits(b2)
    requires "matrix[" + a + ", " + b + "] = " == "matrix[" + a2 + ", " + b2 + "] = "
    ensures a == a2 && b == b2
  {
    var x := "matrix[" + a + ", " + b + "] = ";
    var p := |"matrix["|;
    assert x[p + |a|] == ',';
    assert x == "matrix[" + a2 + ", " + b2 + "] = ";
    assert x[p + |a2|] == ',';
    assert |a| == |a2|;
    assert a == x[p..p + |a|] == a2;
    assert |b| == |b2|;
    assert b == x[p + |a| + 2..p + |a| + 2 + |b|] == b2;
  }

  /** A cell line assigns the cell's value to its target: a number as
      written, or the fragment of an applied or grouped cell, whose failure
      is the line's. */
  lemma MatrixCellValue(c: Node, rows: nat, i: nat)
    requires rows > 0
    ensures IsMl(c, "real") ==> MatrixCell(c, rows, i) == Ok(CellTarget(i, rows) + c.text + ";")
    ensures IsMl(c, "apply") || IsMl(c, "parens") ==>
              var v := if IsMl(c, "apply") then ParseApply(c) else ParseParens(c);
              var r := MatrixCell(c, rows, i);
              (v.Fail? ==> r == v) && (v.Ok? ==> r == Ok(CellTarget(i, rows) + v.value + ";"))
  {
    hide ParseApply, ParseParens, GetValue, CellTarget, FirstChildNamed;
    if IsMl(c, "real") {
      assert GetValue(c) == Ok(c.text);
    }
  }

  /** A complex cell assigns `new Complex(re, im)` built from the texts of
      its first `real` and first `imag` children, and fails when either is
      missing. */
  lemma MatrixComplexCell(c: Node, rows: nat, i: nat)
    requires rows > 0 && IsMl(c, "complex")
    ensures var (re, im) := (FirstChildNamed(c, ML, "real"), FirstChildNamed(c, ML, "imag"));
            var r := MatrixCell(c, rows, i);
            (r.Ok? <==> re.Some? && im.Some?)
            && (r.Ok? ==> r.value == CellTarget(i, rows) + ("new Complex(" + re.value.text + ", " + im.value.text + ")") + ";")
  {
    hide ParseApply, ParseParens, GetValue, CellTarget, FirstChildNamed;
    var target := CellTarget(i, rows);
    var (re, im) := (FirstChildNamed(c, ML, "real"), FirstChildNamed(c, ML, "imag"));
    if re.Some? && im.Some? {
      var v := "new Complex(" + re.value.text + ", " + im.value.text + ")";
      assert MatrixCell(c, rows, i) == Ok(target + v + ";");
    }
  }

  /** The assignment lines follow the children one for one: line `k` is the
      line of child `k` at flat index `k`, and each succeeded. */
  lemma {:induction false} MatrixCellsInOrder(n: Node, rows: nat, i: nat)
    requires i <= |n.children| && MatrixCells(n, rows, i).Ok?
    ensures forall k :: i <= k < |n.children| ==>
              MatrixCell(n.children[k], rows, k).Ok?
              && MatrixCells(n, rows, i).value[k - i] == MatrixCell(n.children[k], rows, k).value
    decreases |n.children| - i
  {
    hide MatrixCell;
    if i < |n.children| {
      MatrixCellsInOrder(n, rows, i + 1);
    }
  }

  /** A translated matrix is the `Dense(rows, cols)` construction with the
      declared sizes, followed by one assignment per child, child `k`
      assigned to the target of flat index `k`. A matrix with children needs
      a positive row count. */
  lemma MatrixLayout(n: Node)
    requires ParseMatrix(n).Ok?
    ensures var rows, cols := Dimension(n, "rows"), Dimension(n, "cols");
            rows.Ok? && cols.Ok?
            && ParseMatrix(n).value[0] == "matrix = Matrix<double>.Build.Dense("
                                           + NatToString(rows.value) + ", " + NatToString(cols.value) + ");"
            && (|n.children| > 0 ==> rows.value > 0)
            && forall k :: 0 <= k < |n.children| ==>
                 StartsWith(ParseMatrix(n).value[k + 1], CellTarget(k, rows.value))
  {
    hide MatrixCell, NatToString, CellTarget;
    var rows := Dimension(n, "rows").value;
    MatrixCellsInOrder(n, rows, 0);
    forall k | 0 <= k < |n.children|
      ensures StartsWith(ParseMatrix(n).value[k + 1], CellTarget(k, rows))
    {
      assert ParseMatrix(n).value[k + 1] == MatrixCell(n.children[k], rows, k).value;
    }
  }

  /** A size attribute spelled as a plain decimal number is read as that
      number, so the construction line repeats the attributes as written. */
  lemma MatrixHeaderEchoes(n: Node, r: nat, c: nat)
    requires "rows" in n.attrs && n.attrs["rows"] == NatToString(r)
    requires "cols" in n.attrs && n.attrs["cols"] == NatToString(c)
    requires ParseMatrix(n).Ok?
    ensures ParseMatrix(n).value[0] ==
              "matrix = Matrix<double>.Build.Dense(" + n.attrs["rows"] + ", " + n.attrs["cols"] + ");"
  {
    hide MatrixCells, NatToString;
    ParseNatToString(r);
    ParseNatToString(c);
  }

  /** Without a `rows` attribute the row count is zero, and the first cell
      of a known kind divides by it. */
  lemma MatrixWithoutRows(n: Node)
    requires "rows" !in n.attrs && Dimension(n, "cols").Ok? && |n.children| > 0
    requires n.children[0].ns == ML && n.children[0].local in {"real", "complex", "apply", "parens"}
    ensures ParseMatrix(n) == Fail("Attempted to divide by zero.")
  {
    assert MatrixCell(n.children[0], 0, 0) == Fail("Attempted to divide by zero.");
    assert MatrixCells(n, 0, 0) == Fail("Attempted to divide by zero.");
  }

  // ---------------------------------------------------------------------
  // Definitions and evaluations
  // ---------------------------------------------------------------------

  /** The nested translator a definition or evaluation hands the child `c`
      to succeeds; identifiers and numbers always have a value. */
  predicate Translates(c: Node) {
    if IsMl(c, "apply") then ParseApply(c).Ok?
    else if IsMl(c, "parens") then ParseParens(c).Ok?
    else if IsMl(c, "function") then ParseFunction(c).Ok?
    else if IsMl(c, "range") then ParseRange(c).Ok?
    else if IsMl(c, "matrix") then ParseMatrix(c).Ok?
    else if IsMl(c, "program") then ParseProgram(c).Ok?
    else if IsMl(c, "unitOverride") then ParseUnitOverride(c).Ok?
    else if IsMl(c, "result") then ParseResult(c).Ok?
    else true
  }

  /** A definition is translated exactly when its two children form one of
      the listed shapes and each child's own translation succeeds: a
      failure below aborts the definition, and nothing else does. */
  lemma DefinitionSucceeds(n: Node)
    ensures ParseDefinition(n).Ok? <==>
              HasShape(n, DefineShapes) && Translates(n.children[0]) && Translates(n.children[1])
  {
    hide ParseApply, ParseParens, ParseFunction, ParseRange, ParseMatrix, ParseProgram, Block, GetValue;
  }

  /** A definition is one member line, except a function definition, which
      is its signature and a body block returning the right-hand side. */
  lemma DefinitionLines(n: Node)
    requires ParseDefinition(n).Ok?
    ensures var lines := ParseDefinition(n).value;
            var (lhs, rhs) := (n.children[0], n.children[1]);
            (IsMl(lhs, "function") ==>
               var body := if IsMl(rhs, "apply") then ParseApply(rhs) else ParseParens(rhs);
               lines == [ParseFunction(lhs).value, "{", "return " + body.value + ";", "}"])
            && (!IsMl(lhs, "function") ==> |lines| == 1)
  {
    hide ParseApply, ParseParens, ParseFunction, ParseRange, ParseMatrix, ParseProgram, Block, GetValue;
  }

  /** An identifier on the left declares a public member, except when the
      right side is an identifier too (see `DefinitionCopies`). */
  lemma DefinitionVisibility(n: Node)
    requires ParseDefinition(n).Ok? && IsMl(n.children[0], "id") && !IsMl(n.children[1], "id")
    ensures StartsWith(ParseDefinition(n).value[0], "public ")
  {
    hide ParseApply, ParseParens, ParseFunction, ParseRange, ParseMatrix, ParseProgram, Block,
         GetValue;
    var rhs := n.children[1];
    var name := ValueOf(n.children[0]);
    var (kind, middle, v, tail) :=
      if IsMl(rhs, "real") then ("public double ", " = ", ValueOf(rhs), ";")
      else if IsMl(rhs, "apply") then ("public double ", " { get { return ", ParseApply(rhs).value, "; } }")
      else if IsMl(rhs, "parens") then ("public double ", " { get { return ", ParseParens(rhs).value, "; } }")
      else if IsMl(rhs, "range") then ("public double ", " = ", ParseRange(rhs).value, ";")
      else if IsMl(rhs, "matrix") then ("public var ", " = ", Block(ParseMatrix(rhs).value), ";")
      else ("public double ", " = ", Block(ParseProgram(rhs).value), ";");
    assert ParseDefinition(n).value[0] == kind + name + middle + v + tail;
    assert kind[..7] == "public ";
    PrefixKept(kind, "public ", name, middle, v, tail);
  }

  /** An identifier defined as another identifier is a plain copy declared
      without `public`. */
  lemma DefinitionCopies(n: Node)
    requires ParseDefinition(n).Ok? && IsMl(n.children[0], "id") && IsMl(n.children[1], "id")
    ensures ParseDefinition(n).value == ["double " + ValueOf(n.children[0]) + " = " + ValueOf(n.children[1]) + ";"]
  {
    hide ParseApply, ParseParens, ParseFunction, ParseRange, ParseMatrix, ParseProgram, Block,
         GetValue;
  }

  /** The exact line of each definition of an identifier: a number is a
      public field, an applied or grouped right side a getter that recomputes
      it, a range or program a field initialised by it, and a matrix a
      `var` field initialised by its construction block. */
  lemma DefinitionOfIdentifier(n: Node)
    requires ParseDefinition(n).Ok? && IsMl(n.children[0], "id")
    ensures var (x, rhs, lines) := (ValueOf(n.children[0]), n.children[1], ParseDefinition(n).value);
            (IsMl(rhs, "real") ==> lines == ["public double " + x + " = " + rhs.text + ";"])
            && (IsMl(rhs, "apply") ==>
                  ParseApply(rhs).Ok?
                  && lines == ["public double " + x + " { get { return " + ParseApply(rhs).value + "; } }"])
            && (IsMl(rhs, "parens") ==>
                  ParseParens(rhs).Ok?
                  && lines == ["public double " + x + " { get { return " + ParseParens(rhs).value + "; } }"])
            && (IsMl(rhs, "range") ==>
                  ParseRange(rhs).Ok? && lines == ["public double " + x + " = " + ParseRange(rhs).value + ";"])
            && (IsMl(rhs, "matrix") ==>
                  ParseMatrix(rhs).Ok? && lines == ["public var " + x + " = " + Block(ParseMatrix(rhs).value) + ";"])
            && (IsMl(rhs, "program") ==>
                  ParseProgram(rhs).Ok?
                  && lines == ["public double " + x + " = " + Block(ParseProgram(rhs).value) + ";"])
  {
    hide ParseApply, ParseParens, ParseFunction, ParseRange, ParseMatrix, ParseProgram, Block, GetValue;
  }

  /** The exact line of each definition of an apply: an assignment
      `target=value;` with no spaces, the value being the right side's
      fragment or its program block. */
  lemma DefinitionOfApply(n: Node)
    requires ParseDefinition(n).Ok? && IsMl(n.children[0], "apply")
    ensures ParseApply(n.children[0]).Ok?
    ensures var (t, rhs, lines) := (ParseApply(n.children[0]).value, n.children[1], ParseDefinition(n).value);
            (IsMl(rhs, "apply") ==> ParseApply(rhs).Ok? && lines == [t + "=" + ParseApply(rhs).value + ";"])
            && (IsMl(rhs, "parens") ==> ParseParens(rhs).Ok? && lines == [t + "=" + ParseParens(rhs).value + ";"])
            && (IsMl(rhs, "program") ==>
                  ParseProgram(rhs).Ok? && lines == [t + "=" + Block(ParseProgram(rhs).value) + ";"])
  {
    hide ParseApply, ParseParens, ParseFunction, ParseRange, ParseMatrix, ParseProgram, Block, GetValue;
  }

  /** An apply on the left is not declared but assigned to: the line starts
      with the apply's fragment and `=`. */
  lemma DefinitionAssigns(n: Node)
    requires ParseDefinition(n).Ok? && IsMl(n.children[0], "apply")
    ensures ParseApply(n.children[0]).Ok?
    ensures StartsWith(ParseDefinition(n).value[0], ParseApply(n.children[0]).value + "=")
  {
    hide ParseApply, ParseParens, ParseFunction, ParseRange, ParseMatrix, ParseProgram, Block,
         GetValue;
    var p := ParseApply(n.children[0]).value + "=";
    assert ParseDefinition(n).value[0][..|p|] == p;
  }

  /** The child lists an evaluation accepts: a named or applied target, an
      optional unit override, and the shown result; or a lone identifier. */
  predicate EvalShape(n: Node) {
    var ch := n.children;
    (|ch| == 3 && (IsMl(ch[0], "id") || IsMl(ch[0], "apply"))
     && IsMl(ch[1], "unitOverride") && IsMl(ch[2], "result"))
    || (|ch| == 2 && (IsMl(ch[0], "id") || IsMl(ch[0], "apply")) && IsMl(ch[1], "result"))
    || (|ch| == 1 && IsMl(ch[0], "id"))
  }

  /** An evaluation is translated exactly when its children form an accepted
      list and every child's own translation succeeds. */
  lemma EvalSucceeds(n: Node)
    ensures ParseEval(n).Ok? <==>
              EvalShape(n) && forall k :: 0 <= k < |n.children| ==> Translates(n.children[k])
  {
    hide ParseApply, ParseUnitOverride, ParseResult, GetValue, ParseParens, ParseFunction, ParseRange,
         ParseMatrix, ParseProgram, Translates;
    var ch := n.children;
    if |ch| == 1 {
      EvalChildrenTranslate(ch[0], ch[0], ch[0]);
    } else if |ch| == 2 {
      EvalChildrenTranslate(ch[0], ch[0], ch[1]);
    } else if |ch| == 3 {
      EvalChildrenTranslate(ch[0], ch[1], ch[2]);
    }
  }

  /** How `Translates` reads for the kinds an evaluation lists. */
  lemma EvalChildrenTranslate(target: Node, unit: Node, res: Node)
    ensures IsMl(target, "id") ==> Translates(target)
    ensures IsMl(target, "apply") ==> (Translates(target) <==> ParseApply(target).Ok?)
    ensures IsMl(unit, "unitOverride") ==> (Translates(unit) <==> ParseUnitOverride(unit).Ok?)
    ensures IsMl(res, "result") ==> (Translates(res) <==> ParseResult(res).Ok?)
  {
    hide ParseApply, ParseUnitOverride, ParseResult;
  }

  /** An evaluation of a lone identifier declares a public field of that
      name holding 0. */
  lemma EvalLoneField(n: Node)
    requires ParseEval(n).Ok? && |n.children| == 1
    ensures ParseEval(n).value == ["public double " + ValueOf(n.children[0]) + " = 0;"]
  {
    hide ParseApply, ParseUnitOverride, ParseResult, GetValue, ParseParens, ParseFunction, ParseRange,
         ParseMatrix, ParseProgram;
  }

  /** An evaluation with a result declares a public field named by its
      target, an identifier's value or, for an applied target, the apply's
      fragment, holding the shown result. */
  lemma EvalResultField(n: Node)
    requires ParseEval(n).Ok? && |n.children| == 2
    ensures IsMl(n.children[0], "id") || ParseApply(n.children[0]).Ok?
    ensures ParseResult(n.children[1]).Ok?
    ensures var target := n.children[0];
            var name := if IsMl(target, "id") then ValueOf(target) else ParseApply(target).value;
            ParseEval(n).value == ["public double " + name + " = " + ParseResult(n.children[1]).value + ";"]
  {
    hide ParseApply, ParseUnitOverride, ParseResult, GetValue, ParseParens, ParseFunction, ParseRange,
         ParseMatrix, ParseProgram;
  }

  /** An evaluation with a unit override declares the same field, holding
      the shown result followed by the override's fragment. */
  lemma EvalUnitField(n: Node)
    requires ParseEval(n).Ok? && |n.children| == 3
    ensures IsMl(n.children[0], "id") || ParseApply(n.children[0]).Ok?
    ensures ParseUnitOverride(n.children[1]).Ok? && ParseResult(n.children[2]).Ok?
    ensures var target := n.children[0];
            var name := if IsMl(target, "id") then ValueOf(target) else ParseApply(target).value;
            ParseEval(n).value
              == ["public double " + name + " = " + ParseResult(n.children[2]).value + " "
                  + ParseUnitOverride(n.children[1]).value + ";"]
  {
    hide ParseApply, ParseUnitOverride, ParseResult, GetValue, ParseParens, ParseFunction, ParseRange,
         ParseMatrix, ParseProgram;
  }

  /** A united result shows its number only: replacing its unit by any other
      unit changes nothing. */
  lemma ResultIgnoresUnit(n: Node, unit: Node)
    requires |n.children| == 1 && IsMl(n.children[0], "unitedValue")
    requires var inner := n.children[0].children;
             |inner| == 2 && IsMl(inner[0], "real") && Named(inner[1], UNITS, "unitMonomial")
    requires Named(unit, UNITS, "unitMonomial")
    ensures var u := n.children[0];
            var other := n.(children := [u.(children := [u.children[0], unit])]);
            ParseResult(n) == ParseResult(other) == Ok(u.children[0].text)
  {
  }

  /** A unit override with one application child is that application's
      fragment, one with one identifier child is the resolved name, and
      any other shape is "Unknown unit override". */
  lemma UnitOverrideForms(n: Node)
    ensures |n.children| == 1 && IsMl(n.children[0], "apply") ==>
              ParseUnitOverride(n) == ParseApply(n.children[0])
    ensures |n.children| == 1 && IsMl(n.children[0], "id") ==>
              ParseUnitOverride(n) == Ok(ResolveIdentifier(RawIdentifier(n.children[0])))
    ensures !(|n.children| == 1 && (IsMl(n.children[0], "apply") || IsMl(n.children[0], "id"))) ==>
              ParseUnitOverride(n) == Fail("Unknown unit override")
  {
    hide ParseApply;
  }

  /** A result with one number child shows that number's text, one with a
      matrix child shows the matrix lines one per line, a united value shows
      its number, and every other shape fails with the source's message. */
  lemma ResultForms(n: Node)
    ensures |n.children| == 1 && IsMl(n.children[0], "real") ==>
              ParseResult(n) == Ok(n.children[0].text)
    ensures |n.children| == 1 && IsMl(n.children[0], "matrix") ==>
              var m := ParseMatrix(n.children[0]);
              (m.Ok? ==> ParseResult(n) == Ok(Block(m.value)))
              && (m.Fail? ==> ParseResult(n) == Fail(m.reason))
    ensures |n.children| == 1 && IsMl(n.children[0], "unitedValue") ==>
              var inner := n.children[0].children;
              (|inner| == 2 && IsMl(inner[0], "real") && Named(inner[1], UNITS, "unitMonomial") ==>
                 ParseResult(n) == Ok(inner[0].text))
              && (!(|inner| == 2 && IsMl(inner[0], "real") && Named(inner[1], UNITS, "unitMonomial")) ==>
                    ParseResult(n) == Fail("Unknown unitedValue"))
    ensures !(|n.children| == 1 && n.children[0].ns == ML
              && n.children[0].local in {"unitedValue", "real", "matrix"}) ==>
              ParseResult(n) == Fail("Unknown result")
  {
    hide ParseMatrix, Block;
  }

  // ---------------------------------------------------------------------
  // Ranges, programs and guarded returns
  // ---------------------------------------------------------------------

  /** A range is `Enumerable.Range(start, count)` starting at its number;
      it fails exactly for a wrong shape or an untranslatable group. The
      count of a grouped bound is `bound - start`, but an identifier bound is
      passed as it is, with no subtraction. */
  lemma RangeForm(n: Node)
    ensures ParseRange(n).Ok? <==>
              |n.children| == 2 && IsMl(n.children[0], "real")
              && (IsMl(n.children[1], "parens") || IsMl(n.children[1], "id"))
              && Translates(n.children[1])
    ensures ParseRange(n).Ok? ==>
              StartsWith(ParseRange(n).value, "Enumerable.Range(" + ValueOf(n.children[0]) + ", ")
    ensures ParseRange(n).Ok? && IsMl(n.children[1], "parens") ==>
              ParseParens(n.children[1]).Ok?
              && ParseRange(n).value == "Enumerable.Range(" + n.children[0].text + ", "
                                        + ParseParens(n.children[1]).value + " - " + n.children[0].text + ")"
    ensures ParseRange(n).Ok? && IsMl(n.children[1], "id") ==>
              ParseRange(n).value == "Enumerable.Range(" + n.children[0].text + ", " + ValueOf(n.children[1]) + ")"
  {
    hide ParseParens;
    if ParseRange(n).Ok? {
      var p := "Enumerable.Range(" + ValueOf(n.children[0]) + ", ";
      var line := ParseRange(n).value;
      if IsMl(n.children[1], "parens") {
        var start := ValueOf(n.children[0]);
        assert line == p + ParseParens(n.children[1]).value + " - " + start + ")";
      } else {
        assert line == p + ValueOf(n.children[1]) + ")";
      }
      assert line[..|p|] == p;
    }
  }

  /** The entry a program statement contributes. */
  function Entry(c: Node): Result<string> {
    if IsMl(c, "ifThen") then
      match ParseIfThen(c)
      case Ok(lines) => Ok(Block(lines))
      case Fail(e) => Fail(e)
    else if IsMl(c, "apply") then ParseApply(c)
    else Fail("Unknown program")
  }

  /** A program's entries are its statements' entries, one for one, in
      order; and the program fails exactly when one of them does. */
  lemma {:induction false} ProgramInOrder(n: Node, i: nat)
    requires i <= |n.children|
    ensures ProgramItems(n, i).Ok? <==> forall k :: i <= k < |n.children| ==> Entry(n.children[k]).Ok?
    ensures ProgramItems(n, i).Ok? ==>
              forall k :: i <= k < |n.children| ==>
                ProgramItems(n, i).value[k - i] == Entry(n.children[k]).value
    decreases |n.children| - i
  {
    hide ParseIfThen, ParseApply, Block, ProgramItems, Entry;
    if i < |n.children| {
      ProgramInOrder(n, i + 1);
      ProgramItemsStep(n, i);
    } else {
      ProgramItemsEnd(n);
    }
  }

  /** One unfolding of `ProgramItems`, kept apart from the induction. */
  lemma ProgramItemsStep(n: Node, i: nat)
    requires i < |n.children|
    ensures ProgramItems(n, i).Ok? <==> Entry(n.children[i]).Ok? && ProgramItems(n, i + 1).Ok?
    ensures ProgramItems(n, i).Ok? ==>
              ProgramItems(n, i).value == [Entry(n.children[i]).value] + ProgramItems(n, i + 1).value
  {
    hide ParseIfThen, ParseApply, Block;
  }

  lemma ProgramItemsEnd(n: Node)
    ensures ProgramItems(n, |n.children|) == Ok([])
  {
  }

  /** A guarded return is `if(cond)`, a block, and `return v;` with the
      number or the nested program as `v`; it fails exactly for a wrong
      shape, an untranslatable condition or an untranslatable program. */
  lemma IfThenForm(n: Node)
    ensures var ch := n.children;
            ParseIfThen(n).Ok? <==>
              |ch| == 2 && IsMl(ch[0], "apply") && (IsMl(ch[1], "real") || IsMl(ch[1], "program"))
              && Translates(ch[0]) && Translates(ch[1])
    ensures var ch := n.children;
            ParseIfThen(n).Ok? ==>
              var v := if IsMl(ch[1], "real") then ValueOf(ch[1]) else Block(ParseProgram(ch[1]).value);
              ParseIfThen(n).value == ["if(" + ParseApply(ch[0]).value + ")", "{", "return " + v + ";", "}"]
  {
    hide ParseApply, ParseProgram, Block;
  }
}

=== FILE: strings.dfy ===
/** The .NET string operations the translator relies on, over `seq<char>`.

    Searches use ordinal comparison; the culture-sensitive comparison of
    `String.IndexOf(string)` is not modelled.
 */
module Strings {
  import opened Results

  /** A one-character string search such as `s.IndexOf(",", lo, hi - lo)`
      or `s.IndexOf(";", lo)`, compared ordinally: the first position in
      [lo, hi) holding `c`, or -1 when there is none (`IndexOfCharFirst`). */
  function IndexOfChar(s: string, c: char, lo: nat, hi: nat): (r: int)
    requires lo <= hi <= |s|
    ensures r == -1 || (lo <= r < hi && s[r] == c)
    decreases hi - lo
  {
    if lo == hi then -1
    else if s[lo] == c then lo
    else IndexOfChar(s, c, lo + 1, hi)
  }

  /** No position before the one `IndexOfChar` finds holds `c`, and when it
      finds none, no position in the range does. */
  lemma {:induction false} IndexOfCharFirst(s: string, c: char, lo: nat, hi: nat)
    requires lo <= hi <= |s|
    ensures var r := IndexOfChar(s, c, lo, hi);
            (r >= 0 ==> forall k :: lo <= k < r ==> s[k] != c)
            && (r < 0 ==> forall k :: lo <= k < hi ==> s[k] != c)
    decreases hi - lo
  {
    if lo < hi && s[lo] != c {
      IndexOfCharFirst(s, c, lo + 1, hi);
    }
  }

  /** Any value meeting the characterisation of `IndexOfChar` is its result. */
  lemma {:induction false} IndexOfCharIs(s: string, c: char, lo: nat, hi: nat, r: int)
    requires lo <= hi <= |s|
    requires r == -1 || lo <= r < hi
    requires r >= 0 ==> s[r] == c && forall k :: lo <= k < r ==> s[k] != c
    requires r < 0 ==> forall k :: lo <= k < hi ==> s[k] != c
    ensures IndexOfChar(s, c, lo, hi) == r
    decreases hi - lo
  {
    if lo < hi && s[lo] != c {
      IndexOfCharIs(s, c, lo + 1, hi, r);
    }
  }

  /** `p` occurs in `s` starting at position `k`. */
  predicate OccursAt(s: string, p: string, k: int) {
    0 <= k && k + |p| <= |s| && MatchesFrom(s, p, k, 0)
  }

  /** The characters of `p` from index `j` on match `s` from `k + j` on. */
  predicate MatchesFrom(s: string, p: string, k: nat, j: nat)
    requires k + |p| <= |s| && j <= |p|
    decreases |p| - j
  {
    j == |p| || (s[k + j] == p[j] && MatchesFrom(s, p, k, j + 1))
  }

  /** `OccursAt` is the slice comparison it stands for. */
  lemma {:induction false} OccursAtIsSlice(s: string, p: string, k: int)
    ensures OccursAt(s, p, k) <==> 0 <= k && k + |p| <= |s| && s[k..k + |p|] == p
  {
    if 0 <= k && k + |p| <= |s| {
      MatchesFromIsSlice(s, p, k, 0);
      assert p[0..] == p;
    }
  }

  lemma {:induction false} MatchesFromIsSlice(s: string, p: string, k: nat, j: nat)
    requires k + |p| <= |s| && j <= |p|
    ensures MatchesFrom(s, p, k, j) <==> s[k + j..k + |p|] == p[j..]
    decreases |p| - j
  {
    if j < |p| {
      MatchesFromIsSlice(s, p, k, j + 1);
      assert s[k + j..k + |p|] == [s[k + j]] + s[k + j + 1..k + |p|];
      assert p[j..] == [p[j]] + p[j + 1..];
    }
  }

  /** `s.IndexOf(p, from)`: the first position at or after `from` where `p`
      starts, or -1 when there is none (`IndexOfSubFirst`). */
  function IndexOfSub(s: string, p: string, from: nat): (r: int)
    requires |p| > 0 && from <= |s|
    ensures r == -1 || (from <= r && OccursAt(s, p, r))
    decreases |s| - from
  {
    if from + |p| > |s| then -1
    else if OccursAt(s, p, from) then from
    else IndexOfSub(s, p, from + 1)
  }

  /** `p` starts nowhere between `from` and the position `IndexOfSub` finds,
      and nowhere at or after `from` when it finds none. */
  lemma {:induction false} IndexOfSubFirst(s: string, p: string, from: nat)
    requires |p| > 0 && from <= |s|
    ensures var r := IndexOfSub(s, p, from);
            (r >= 0 ==> forall k :: from <= k < r ==> !OccursAt(s, p, k))
            && (r < 0 ==> forall k :: from <= k ==> !OccursAt(s, p, k))
    decreases |s| - from
  {
    if from + |p| <= |s| && !OccursAt(s, p, from) {
      IndexOfSubFirst(s, p, from + 1);
    }
  }

  /** Any value meeting the characterisation of `IndexOfSub` is its result. */
  lemma {:induction false} IndexOfSubIs(s: string, p: string, from: nat, r: int)
    requires |p| > 0 && from <= |s|
    requires r == -1 || (from <= r && OccursAt(s, p, r))
    requires r >= 0 ==> forall k :: from <= k < r ==> !OccursAt(s, p, k)
    requires r < 0 ==> forall k :: from <= k ==> !OccursAt(s, p, k)
    ensures IndexOfSub(s, p, from) == r
    decreases |s| - from
  {
    if from + |p| <= |s| && !OccursAt(s, p, from) {
      IndexOfSubIs(s, p, from + 1, r);
    }
  }

  /** `s` begins with `p`. */
  predicate StartsWith(s: string, p: string) {
    |p| <= |s| && s[..|p|] == p
  }

  /** Appending keeps a prefix. */
  lemma PrefixKept(s: string, p: string, a: string, b: string, c: string, d: string)
    requires StartsWith(s, p)
    ensures StartsWith(s + a + b + c + d, p)
  {
    assert (s + a + b + c + d)[..|p|] == s[..|p|];
  }

  /** `string.Join(sep, items)`. */
  function Join(sep: string, items: seq<string>): string {
    if |items| == 0 then ""
    else if |items| == 1 then items[0]
    else items[0] + sep + Join(sep, items[1..])
  }

  /** The join of one item is that item; the join of more starts with the
      first item and the separator. */
  lemma JoinCons(sep: string, items: seq<string>)
    requires |items| >= 1
    ensures |items| == 1 ==> Join(sep, items) == items[0]
    ensures |items| >= 2 ==> Join(sep, items) == items[0] + sep + Join(sep, items[1..])
  {
  }

  /** `s.Split(c)`: the pieces between occurrences of `c`, empty ones kept. */
  function Split(s: string, c: char): (parts: seq<string>)
    ensures |parts| >= 1
    ensures forall i :: 0 <= i < |parts| ==> c !in parts[i]
    ensures Join([c], parts) == s
    decreases |s|
  {
    var k := IndexOfChar(s, c, 0, |s|);
    if k < 0 then
      IndexOfCharFirst(s, c, 0, |s|);
      [s]
    else
      IndexOfCharFirst(s, c, 0, |s|);
      var head := s[..k];
      assert c !in head;
      var rest := Split(s[k + 1..], c);
      assert s == head + [c] + s[k + 1..];
      [head] + rest
  }

  /** Splitting a join on a separator that no item contains gives the items back. */
  lemma {:induction false} SplitJoin(items: seq<string>, c: char)
    requires |items| >= 1
    requires forall i :: 0 <= i < |items| ==> c !in items[i]
    ensures Split(Join([c], items), c) == items
    decreases |items|
  {
    var s := Join([c], items);
    if |items| == 1 {
      IndexOfCharIs(s, c, 0, |s|, -1);
    } else {
      var tail := Join([c], items[1..]);
      assert s == items[0] + [c] + tail;
      assert s[|items[0]|] == c;
      assert forall k :: 0 <= k < |items[0]| ==> s[k] == items[0][k];
      IndexOfCharIs(s, c, 0, |s|, |items[0]|);
      assert s[..|items[0]|] == items[0];
      assert s[|items[0]| + 1..] == tail;
      SplitJoin(items[1..], c);
      assert items == [items[0]] + items[1..];
    }
  }

  /** What a `StringBuilder` holds after one `AppendLine` per line. */
  function Block(lines: seq<string>): string {
    if |lines| == 0 then "" else lines[0] + "\n" + Block(lines[1..])
  }

  /** The decimal digit `d` as a character. */
  function Digit(d: nat): (c: char)
    requires d < 10
    ensures '0' <= c <= '9'
  {
    (48 + d) as char
  }

  /** `$"{n}"` for a non-negative `int`: its decimal spelling. */
  function NatToString(n: nat): (r: string)
    ensures IsDigits(r)
    decreases n
  {
    if n < 10 then [Digit(n)] else NatToString(n / 10) + [Digit(n % 10)]
  }

  predicate IsDigits(s: string) {
    |s| > 0 && forall i :: 0 <= i < |s| ==> '0' <= s[i] <= '9'
  }

  /** The number a string of decimal digits spells. */
  function DigitsValue(s: string): nat
    requires forall i :: 0 <= i < |s| ==> '0' <= s[i] <= '9'
    decreases |s|
  {
    if |s| == 0 then 0
    else DigitsValue(s[..|s| - 1]) * 10 + (s[|s| - 1] as int - 48)
  }

  /** `int.Parse` restricted to plain digit strings; anything else is the
      `FormatException` case. */
  function ParseNat(s: string): Option<nat> {
    if IsDigits(s) then Some(DigitsValue(s)) else None
  }

  /** Parsing the spelling of a number gives the number back. */
  lemma {:induction false} ParseNatToString(n: nat)
    ensures ParseNat(NatToString(n)) == Some(n)
    decreases n
  {
    var s := NatToString(n);
    assert s[|s| - 1] as int - 48 == n % 10;
    if n >= 10 {
      ParseNatToString(n / 10);
      assert s[..|s| - 1] == NatToString(n / 10);
    } else {
      assert s[..|s| - 1] == [];
      assert DigitsValue(s[..|s| - 1]) == 0;
      assert DigitsValue(s) == n;
    }
  }
}

=== FILE: translator.dfy ===
/** Value resolution and operation dispatch: `GetValue`, `ParseApply`,
    `ParseParens` and `ParseSequence` of xmcd2cs/Parser.cs.

    Each function turns one math node into an inline C# fragment. They call
    one another on the node's children, so they terminate on the node, with
    a second component ordering the calls made on the same node.
 */
module Translator {
  import opened Results
  import opened Strings
  import opened Xml
  import Conditional

  /** Identifier spellings that stand for a .NET constant or function. */
  const KnownIdentifiers: map<string, string> :=
    map["π" := "Math.PI", "ln" := "Math.Log", "log" := "Math.Log10"]

  /** The C# symbol of each operator tag that a 3-child apply writes infix. */
  const InfixSymbols: map<string, string> :=
    map["mult" := "*", "minus" := "-", "div" := "/", "plus" := "+",
        "lessThan" := "<", "greaterThan" := ">", "greaterOrEqual" := ">=",
        "lessOrEqual" := "<=", "equal" := "=="]

  /** The node kinds `GetValue` accepts. */
  const ValueKinds: set<string> := {"real", "id", "apply", "imag", "parens", "sequence"}

  /** The operator tags a 3-child apply accepts. */
  const ThreeChildHeads: set<string> := InfixSymbols.Keys + {"nthRoot", "pow", "indexer"}

  predicate IsValueKind(n: Node) {
    n.ns == ML && n.local in ValueKinds
  }

  /** An identifier's name with its subscript, if any, as `name_subscript`. */
  function RawIdentifier(n: Node): string {
    n.text + (if "subscript" in n.attrs then "_" + n.attrs["subscript"] else "")
  }

  /** The `π` / `ln` / `log` substitution, applied to the whole name only. */
  function ResolveIdentifier(raw: string): (r: string)
    ensures raw in KnownIdentifiers ==> r == KnownIdentifiers[raw]
    ensures raw !in KnownIdentifiers ==> r == raw
  {
    if raw == "π" then "Math.PI"
    else if raw == "ln" then "Math.Log"
    else if raw == "log" then "Math.Log10"
    else raw
  }

  /** `GetValue`: the fragment for a node in value position. */
  function GetValue(n: Node): (r: Result<string>)
    ensures r.Ok? ==> IsValueKind(n)
    ensures !IsValueKind(n) ==> r == Fail("Unknown value!")
    ensures IsMl(n, "real") ==> r == Ok(n.text)
    ensures IsMl(n, "id") ==> r == Ok(ResolveIdentifier(RawIdentifier(n)))
    ensures IsMl(n, "imag") ==> r == Ok(n.text + "i")
    decreases n, 3, 0
  {
    if IsMl(n, "real") then Ok(n.text)
    else if IsMl(n, "id") then Ok(ResolveIdentifier(RawIdentifier(n)))
    else if IsMl(n, "apply") then ParseApply(n)
    else if IsMl(n, "imag") then Ok(n.text + "i")
    else if IsMl(n, "parens") then ParseParens(n)
    else if IsMl(n, "sequence") then ParseSequence(n)
    else Fail("Unknown value!")
  }

  /** `ParseApply`: the fragment for an operation node. The first child names
      the operator, the others are its operands. */
  function ParseApply(n: Node): (r: Result<string>)
    ensures |n.children| == 0 ==> r == Ok("")
    ensures |n.children| !in {0, 2, 3} ==> r == Fail("Unknown apply")
    ensures r.Ok? && |n.children| == 3 ==>
              n.children[0].ns == ML && n.children[0].local in ThreeChildHeads
    decreases n, 2, 0
  {
    if |n.children| == 3 then ApplyThree(n)
    else if |n.children| == 2 then ApplyTwo(n)
    else if |n.children| == 0 then Ok("")
    else Fail("Unknown apply")
  }

  /** A binary operation: an infix operator, a root, a power or an index. */
  function ApplyThree(n: Node): (r: Result<string>)
    requires |n.children| == 3
    ensures r.Ok? ==> n.children[0].ns == ML && n.children[0].local in ThreeChildHeads
    decreases n, 1, 0
  {
    var ch := n.children;
    var head := ch[0];
    if head.ns == ML && head.local in InfixSymbols then
      var first :- GetValue(ch[1]);
      var second :- GetValue(ch[2]);
      var complexCandidate := IsMl(head, "plus") && IsMl(ch[1], "apply") && IsMl(ch[2], "apply");
      if complexCandidate && HasImag(ch[2]) && !HasImag(ch[1]) then
        Ok("new Complex(" + first + ", " + second + ")")
      else if complexCandidate && HasImag(ch[1]) && !HasImag(ch[2]) then
        Ok("new Complex(" + second + ", " + first + ")")
      else
        Ok("(" + first + " " + InfixSymbols[head.local] + " " + second + ")")
    else if IsMl(head, "nthRoot") then
      var first :- GetValue(ch[1]);
      var second :- GetValue(ch[2]);
      Ok("(Math.Pow(" + second + ", 1.0 / " + first + "))")
    else if IsMl(head, "pow") then
      var first :- GetValue(ch[1]);
      var second :- GetValue(ch[2]);
      Ok("(Math.Pow(" + first + ", " + second + "))")
    else if IsMl(head, "indexer") then
      var first :- GetValue(ch[1]);
      var second :- GetValue(ch[2]);
      Ok("(" + first + "[" + second + "])")
    else
      Fail("Unknown apply three elements")
  }

  /** A unary operation or a call: the operator (or function name) and its
      single operand. */
  function ApplyTwo(n: Node): (r: Result<string>)
    requires |n.children| == 2
    decreases n, 1, 0
  {
    var head := n.children[0];
    var arg := n.children[1];
    if IsMl(head, "id") && IsMl(arg, "id") then
      var f := GetValue(head).value;
      var x := GetValue(arg).value;
      var x' := if f == "Math.Log10" && x == "e" then "Math.E" else x;
      Ok("(" + f + "(" + x' + "))")
    else if IsMl(head, "id") && IsMl(arg, "real") then
      var f := GetValue(head).value;
      var x := GetValue(arg).value;
      Ok("(" + f + "(" + x + "))")
    else if IsMl(head, "id") && IsMl(arg, "apply") then
      var f := GetValue(head).value;
      var x :- ParseApply(arg);
      Ok("(" + f + "(" + x + "))")
    else if IsMl(head, "sqrt") && IsMl(arg, "apply") then
      var x :- ParseApply(arg);
      Ok("(Math.Sqrt(" + x + "))")
    else if IsMl(head, "absval") && IsMl(arg, "apply") then
      var x :- ParseApply(arg);
      Ok("(Math.Abs(" + x + "))")
    else if IsMl(head, "sqrt") && IsMl(arg, "id") then
      var x := GetValue(arg).value;
      Ok("(Math.Sqrt(" + x + "))")
    else if IsMl(head, "neg") && IsMl(arg, "id") then
      var x := GetValue(arg).value;
      Ok("(-1.0 * (" + x + "))")
    else if IsMl(head, "neg") && IsMl(arg, "apply") then
      var x :- ParseApply(arg);
      Ok("(-1.0 * (" + x + "))")
    else if IsMl(head, "id") && IsMl(arg, "sequence") then
      var f := GetValue(head).value;
      var items :- ParseSequence(arg);
      if f == "if" then Conditional.IfRewrite(items)
      else Ok("(" + f + "(" + items + "))")
    else if IsMl(head, "Find") && IsMl(arg, "id") then
      var x := GetValue(arg).value;
      Ok("(Solve(" + x + "))")
    else if IsMl(head, "vectorSum") && IsMl(arg, "id") then
      var x := GetValue(arg).value;
      Ok("(Vector.Sum(" + x + "))")
    else
      Fail("Unknown apply two elements")
  }

  /** `ParseParens`: a one-child group resolves to its child's fragment; the
      group itself adds no parentheses. */
  function ParseParens(n: Node): (r: Result<string>)
    ensures r.Ok? ==> |n.children| == 1 && n.children[0].ns == ML
                      && n.children[0].local in {"apply", "real", "id"}
    decreases n, 2, 0
  {
    if |n.children| == 1 && (IsMl(n.children[0], "apply") || IsMl(n.children[0], "real")
                             || IsMl(n.children[0], "id"))
    then GetValue(n.children[0])
    else Fail("Unknown parens")
  }

  /** `ParseSequence`: the children's fragments joined by ", ". */
  function ParseSequence(n: Node): (r: Result<string>)
    ensures r.Ok? ==> forall i :: 0 <= i < |n.children| ==>
              n.children[i].ns == ML && n.children[i].local in {"real", "id", "apply"}
    decreases n, 2, 0
  {
    var items :- SequenceItems(n, 0);
    Ok(Join(", ", items))
  }

  /** The fragments of the sequence children from index `i` on. */
  function SequenceItems(n: Node, i: nat): (r: Result<seq<string>>)
    requires i <= |n.children|
    ensures r.Ok? ==> |r.value| == |n.children| - i
    ensures r.Ok? ==> forall k :: i <= k < |n.children| ==>
              n.children[k].ns == ML && n.children[k].local in {"real", "id", "apply"}
    decreases n, 1, |n.children| - i
  {
    if i == |n.children| then Ok([])
    else
      var c := n.children[i];
      var item :-
        if IsMl(c, "real") || IsMl(c, "id") then GetValue(c)
        else if IsMl(c, "apply") then ParseApply(c)
        else Fail("Unknown sequence element");
      var rest :- SequenceItems(n, i + 1);
      Ok([item] + rest)
  }
}

=== FILE: translator_properties.dfy ===
/** What `GetValue` and `ParseApply` promise about the fragments they build
    (xmcd2cs/Parser.cs:163-462).
 */
module TranslatorProperties {
  import opened Results
  import opened Strings
  import opened Xml
  import opened Translator
  import Conditional
  import RewriteProofs

  /** The operator tag of the first child of `n`. */
  predicate HeadIn(n: Node, tags: set<string>)
    requires |n.children| > 0
  {
    n.children[0].ns == ML && n.children[0].local in tags
  }

  /** A 3-child apply succeeds exactly when its head is one of the accepted
      operator tags and both operands have a value; any other head is the
      "Unknown apply three elements" failure. */
  lemma ThreeChildAccepted(n: Node)
    requires |n.children| == 3
    ensures ParseApply(n).Ok? <==>
              HeadIn(n, ThreeChildHeads) && GetValue(n.children[1]).Ok? && GetValue(n.children[2]).Ok?
    ensures !HeadIn(n, ThreeChildHeads) ==> ParseApply(n) == Fail("Unknown apply three elements")
  {
    // Only the three-child half of `ParseApply` is unfolded; the operand
    // values are used through `GetValue`'s contract alone.
    hide GetValue, HasImag, ParseSequence, ParseParens, ApplyTwo, Conditional.IfRewrite;
    assert ParseApply(n) == ApplyThree(n);
    var head := n.children[0];
    if head.ns == ML && head.local in InfixSymbols {
      assert HeadIn(n, ThreeChildHeads);
    } else if IsMl(head, "nthRoot") || IsMl(head, "pow") || IsMl(head, "indexer") {
      assert HeadIn(n, ThreeChildHeads);
    } else {
      assert !HeadIn(n, ThreeChildHeads);
    }
  }

  /** `plus` over two applies of which exactly one holds an imaginary
      literal: the pair that the complex heuristic turns into a `Complex`. */
  predicate ComplexPair(n: Node)
    requires |n.children| == 3
  {
    IsMl(n.children[0], "plus") && IsMl(n.children[1], "apply") && IsMl(n.children[2], "apply")
    && HasImag(n.children[1]) != HasImag(n.children[2])
  }

  /** An infix operator writes its operands in input order around its C#
      symbol, unless the complex heuristic applies. */
  lemma InfixInOrder(n: Node)
    requires |n.children| == 3 && HeadIn(n, InfixSymbols.Keys) && !ComplexPair(n)
    requires GetValue(n.children[1]).Ok? && GetValue(n.children[2]).Ok?
    ensures ParseApply(n) == Ok("(" + GetValue(n.children[1]).value + " "
                                + InfixSymbols[n.children[0].local] + " "
                                + GetValue(n.children[2]).value + ")")
  {
  }

  /** The complex heuristic, both ways: the fragment of a `plus` is a
      `Complex` construction exactly for a complex pair, and then the
      operand without the imaginary literal comes first. */
  lemma ComplexHeuristic(n: Node)
    requires |n.children| == 3 && IsMl(n.children[0], "plus")
    requires GetValue(n.children[1]).Ok? && GetValue(n.children[2]).Ok?
    ensures ParseApply(n).Ok?
    ensures StartsWith(ParseApply(n).value, "new Complex(") <==> ComplexPair(n)
    ensures ComplexPair(n) ==>
              var (re, im) := if HasImag(n.children[2]) then (n.children[1], n.children[2])
                              else (n.children[2], n.children[1]);
              ParseApply(n) == Ok("new Complex(" + GetValue(re).value + ", " + GetValue(im).value + ")")
  {
    hide ParseSequence, ParseParens, ApplyTwo, Conditional.IfRewrite;
    assert ParseApply(n) == ApplyThree(n);
    var a, b := GetValue(n.children[1]).value, GetValue(n.children[2]).value;
    if !ComplexPair(n) {
      assert InfixSymbols["plus"] == "+";
      assert n.children[0].local in InfixSymbols;
      var r := "(" + a + " " + "+" + " " + b + ")";
      assert ParseApply(n) == Ok(r);
      assert r[0] == '(';
    }
  }

  /** `nthRoot` swaps its operands: the root index becomes the exponent's
      denominator; `pow` and `indexer` keep them in order. */
  lemma PowerForms(n: Node)
    requires |n.children| == 3
    requires GetValue(n.children[1]).Ok? && GetValue(n.children[2]).Ok?
    ensures var (a, b) := (GetValue(n.children[1]).value, GetValue(n.children[2]).value);
            (IsMl(n.children[0], "nthRoot") ==> ParseApply(n) == Ok("(Math.Pow(" + b + ", 1.0 / " + a + "))"))
            && (IsMl(n.children[0], "pow") ==> ParseApply(n) == Ok("(Math.Pow(" + a + ", " + b + "))"))
            && (IsMl(n.children[0], "indexer") ==> ParseApply(n) == Ok("(" + a + "[" + b + "])"))
  {
  }

  /** The substitution of a known identifier applies to the whole name only:
      the name changes exactly when it is one of the known spellings. */
  lemma ResolveOnlyKnown(raw: string)
    ensures ResolveIdentifier(raw) != raw <==> raw in KnownIdentifiers
  {
  }

  /** A subscripted identifier is never substituted: `π` with a subscript
      stays `π_sub`. */
  lemma SubscriptedKept(n: Node)
    requires IsMl(n, "id") && "subscript" in n.attrs
    ensures GetValue(n) == Ok(n.text + "_" + n.attrs["subscript"])
  {
    var raw := RawIdentifier(n);
    assert raw[|n.text|] == '_';
    KnownHaveNoUnderscore();
    assert raw !in KnownIdentifiers;
    assert ResolveIdentifier(raw) == raw;
    assert raw == n.text + "_" + n.attrs["subscript"];
  }

  lemma KnownHaveNoUnderscore()
    ensures forall s :: s in KnownIdentifiers ==> '_' !in s
  {
  }

  /** Two identifiers: `log` applied to `e` calls `Math.Log10` on `Math.E`. */
  lemma LogOfE(n: Node)
    requires |n.children| == 2 && IsMl(n.children[0], "id") && IsMl(n.children[1], "id")
    requires RawIdentifier(n.children[0]) == "log" && RawIdentifier(n.children[1]) == "e"
    ensures ParseApply(n) == Ok("(Math.Log10(Math.E))")
  {
    hide ParseSequence, ParseParens, ApplyThree, Conditional.IfRewrite, GetValue;
    assert ParseApply(n) == ApplyTwo(n);
    assert GetValue(n.children[0]) == Ok("Math.Log10");
    assert GetValue(n.children[1]) == Ok("e");
    assert ParseApply(n) == Ok("(" + "Math.Log10" + "(" + "Math.E" + "))");
    assert "(" + "Math.Log10" + "(" + "Math.E" + "))" == "(Math.Log10(Math.E))";
  }

  /** The (operator, operand) kinds a 2-child apply accepts. */
  const TwoChildShapes: set<(string, string)> :=
    {("id", "id"), ("id", "real"), ("id", "apply"), ("sqrt", "apply"), ("absval", "apply"),
     ("sqrt", "id"), ("neg", "id"), ("neg", "apply"), ("id", "sequence"), ("Find", "id"),
     ("vectorSum", "id")}

  /** A 2-child apply of any other shape is the "Unknown apply two elements"
      failure. */
  lemma TwoChildRejected(n: Node)
    requires |n.children| == 2
    requires !(n.children[0].ns == ML && n.children[1].ns == ML
               && (n.children[0].local, n.children[1].local) in TwoChildShapes)
    ensures ParseApply(n) == Fail("Unknown apply two elements")
  {
  }

  /** The one-operand forms around an identifier operand. */
  lemma OneOperandForms(n: Node)
    requires |n.children| == 2 && IsMl(n.children[1], "id")
    ensures var x := GetValue(n.children[1]).value;
            (IsMl(n.children[0], "neg") ==> ParseApply(n) == Ok("(-1.0 * (" + x + "))"))
            && (IsMl(n.children[0], "sqrt") ==> ParseApply(n) == Ok("(Math.Sqrt(" + x + "))"))
            && (IsMl(n.children[0], "Find") ==> ParseApply(n) == Ok("(Solve(" + x + "))"))
            && (IsMl(n.children[0], "vectorSum") ==> ParseApply(n) == Ok("(Vector.Sum(" + x + "))"))
  {
  }

  /** The one-operand forms around an applied operand: the operand's own
      fragment goes inside, and its failure is the whole apply's failure. */
  lemma OneOperandOfApply(n: Node)
    requires |n.children| == 2 && IsMl(n.children[1], "apply")
    requires IsMl(n.children[0], "neg") || IsMl(n.children[0], "sqrt") || IsMl(n.children[0], "absval")
    ensures var inner := ParseApply(n.children[1]);
            (inner.Fail? ==> ParseApply(n) == inner)
            && (inner.Ok? ==>
                  (IsMl(n.children[0], "neg") ==> ParseApply(n) == Ok("(-1.0 * (" + inner.value + "))"))
                  && (IsMl(n.children[0], "sqrt") ==> ParseApply(n) == Ok("(Math.Sqrt(" + inner.value + "))"))
                  && (IsMl(n.children[0], "absval") ==> ParseApply(n) == Ok("(Math.Abs(" + inner.value + "))")))
  {
    hide ParseSequence, ParseParens, ApplyThree, Conditional.IfRewrite;
    assert ParseApply(n) == ApplyTwo(n);
  }

  /** An identifier applied to an operand is a call `(f(x))` of the
      identifier's value on the operand's fragment. The only rewrites are
      `log` of `e`, where `e` becomes `Math.E` (see `LogOfE`), and `if` of a
      sequence (see `IfOfSequence`); a failing operand fails the call. */
  lemma CallForms(n: Node)
    requires |n.children| == 2 && IsMl(n.children[0], "id")
    ensures var f := GetValue(n.children[0]).value;
            var arg := n.children[1];
            (IsMl(arg, "id") && (f != "Math.Log10" || GetValue(arg).value != "e") ==>
               ParseApply(n) == Ok("(" + f + "(" + GetValue(arg).value + "))"))
            && (IsMl(arg, "real") ==> ParseApply(n) == Ok("(" + f + "(" + arg.text + "))"))
            && (IsMl(arg, "apply") ==>
                  if ParseApply(arg).Ok? then ParseApply(n) == Ok("(" + f + "(" + ParseApply(arg).value + "))")
                  else ParseApply(n) == ParseApply(arg))
            && (IsMl(arg, "sequence") && f != "if" ==>
                  if ParseSequence(arg).Ok? then ParseApply(n) == Ok("(" + f + "(" + ParseSequence(arg).value + "))")
                  else ParseApply(n) == ParseSequence(arg))
  {
    hide ParseSequence, ParseParens, ApplyThree, Conditional.IfRewrite;
    assert ParseApply(n) == ApplyTwo(n);
  }

  /** A group adds no parentheses: its fragment is its child's. */
  lemma ParensTransparent(n: Node)
    requires |n.children| == 1
    requires IsMl(n.children[0], "apply") || IsMl(n.children[0], "real") || IsMl(n.children[0], "id")
    ensures ParseParens(n) == GetValue(n.children[0])
  {
  }

  /** The fragment of one sequence item. */
  function ItemValue(c: Node): Result<string> {
    if IsMl(c, "apply") then ParseApply(c) else GetValue(c)
  }

  /** A sequence is the `", "`-join of its items' fragments, in order. */
  lemma {:induction false} SequenceJoins(n: Node, i: nat)
    requires i <= |n.children|
    requires forall k :: i <= k < |n.children| ==>
               (IsMl(n.children[k], "real") || IsMl(n.children[k], "id") || IsMl(n.children[k], "apply"))
               && ItemValue(n.children[k]).Ok?
    ensures SequenceItems(n, i).Ok?
    ensures |SequenceItems(n, i).value| == |n.children| - i
    ensures forall k :: i <= k < |n.children| ==>
              SequenceItems(n, i).value[k - i] == ItemValue(n.children[k]).value
    decreases |n.children| - i
  {
    hide ParseApply, GetValue, SequenceItems, ItemValue;
    if i < |n.children| {
      SequenceJoins(n, i + 1);
      SequenceItemsStep(n, i);
    } else {
      SequenceItemsEnd(n);
    }
  }

  /** One unfolding of `SequenceItems`, kept apart from the induction. */
  lemma SequenceItemsStep(n: Node, i: nat)
    requires i < |n.children|
    requires IsMl(n.children[i], "real") || IsMl(n.children[i], "id") || IsMl(n.children[i], "apply")
    requires ItemValue(n.children[i]).Ok? && SequenceItems(n, i + 1).Ok?
    ensures SequenceItems(n, i) == Ok([ItemValue(n.children[i]).value] + SequenceItems(n, i + 1).value)
  {
    hide ParseApply, GetValue;
  }

  lemma SequenceItemsEnd(n: Node)
    ensures SequenceItems(n, |n.children|) == Ok([])
  {
  }

  /** A translated sequence is its items' fragments joined with `", "`; the
      first item that does not translate decides the failure. */
  lemma SequenceIsJoin(n: Node)
    ensures SequenceItems(n, 0).Ok? ==> ParseSequence(n) == Ok(Join(", ", SequenceItems(n, 0).value))
    ensures SequenceItems(n, 0).Fail? ==> ParseSequence(n) == Fail(SequenceItems(n, 0).reason)
  {
    hide SequenceItems, Join, ParseApply, GetValue;
  }

  /** The value of an application, a group or a sequence is what the
      dedicated translator of that kind makes of it. */
  lemma ValueDelegates(n: Node)
    ensures IsMl(n, "apply") ==> GetValue(n) == ParseApply(n)
    ensures IsMl(n, "parens") ==> GetValue(n) == ParseParens(n)
    ensures IsMl(n, "sequence") ==> GetValue(n) == ParseSequence(n)
  {
    hide ParseApply, ParseParens, ParseSequence;
  }

  /** `if` applied to a sequence is the `if` rewrite of the sequence's
      fragment, or the sequence's failure when it does not translate. For a
      fragment with no `;` the rewrite is the ternary of the fragment cut at
      its two top-level commas. */
  lemma IfOfSequence(n: Node)
    requires |n.children| == 2 && IsMl(n.children[0], "id") && IsMl(n.children[1], "sequence")
    requires RawIdentifier(n.children[0]) == "if"
    ensures ParseSequence(n.children[1]).Ok? ==>
              ParseApply(n) == Conditional.IfRewrite(ParseSequence(n.children[1]).value)
    ensures ParseSequence(n.children[1]).Fail? ==> ParseApply(n) == ParseSequence(n.children[1])
    ensures ParseSequence(n.children[1]).Ok? && ';' !in ParseSequence(n.children[1]).value
            && ParseApply(n).Ok? ==>
              var s := ParseSequence(n.children[1]).value;
              var parts := Split(Conditional.Substitute(s).value, ',');
              var i, j := |parts[0]|, |parts[0]| + 1 + |parts[1]|;
              ParseApply(n) == Ok(Conditional.Ternary(s[..i], s[i + 1..j], s[j + 1..]))
  {
    hide ParseApply, ParseSequence, Conditional.IfRewrite, Conditional.Substitute, Split;
    IfOfSequenceRewrites(n);
    if ParseSequence(n.children[1]).Ok? && ';' !in ParseSequence(n.children[1]).value {
      RewriteProofs.IfRewriteIsTernary(ParseSequence(n.children[1]).value);
    }
  }

  /** The unfolding of `ParseApply` behind `IfOfSequence`. */
  lemma IfOfSequenceRewrites(n: Node)
    requires |n.children| == 2 && IsMl(n.children[0], "id") && IsMl(n.children[1], "sequence")
    requires RawIdentifier(n.children[0]) == "if"
    ensures ParseSequence(n.children[1]).Ok? ==>
              ParseApply(n) == Conditional.IfRewrite(ParseSequence(n.children[1]).value)
    ensures ParseSequence(n.children[1]).Fail? ==> ParseApply(n) == ParseSequence(n.children[1])
  {
    hide ParseParens, ApplyThree, ParseSequence, Conditional.IfRewrite;
    assert ParseApply(n) == ApplyTwo(n);
  }
}

=== FILE: walker.dfy ===
/** The tree walker `TraverseElements` and the compilation-unit framing of
    `Parse` (xmcd2cs/Parser.cs:20-80).

    The walker visits the elements below the root in document order, hands
    each recognised math node to its statement translator, records the local
    name of every other math node as "to implement", and always descends into
    the children, whether or not the node itself was handled.
 */
module Walker {
  import opened Results
  import opened Xml
  import opened Translator
  import opened Statements

  /** What a walk produces: the appended lines, and the local names of the
      math nodes no translator handled (`ToImplement`). */
  datatype Walk = Walk(lines: seq<string>, unimplemented: set<string>)

  const Empty: Walk := Walk([], {})

  /** One walk followed by another. */
  function Then(a: Walk, b: Walk): Walk {
    Walk(a.lines + b.lines, a.unimplemented + b.unimplemented)
  }

  /** The math nodes the walker hands to a translator. An `apply` counts only
      directly under `ws:math`. */
  predicate Handled(n: Node, parentIsWsMath: bool) {
    IsMl(n, "define") || IsMl(n, "eval") || IsMl(n, "globalDefine")
    || (parentIsWsMath && IsMl(n, "apply"))
  }

  /** The effect of visiting `n` itself, before its children. */
  function Dispatch(n: Node, parentIsWsMath: bool): (r: Result<Walk>)
    ensures n.ns != ML ==> r == Ok(Empty)
    ensures n.ns == ML && !Handled(n, parentIsWsMath) ==> r == Ok(Walk([], {n.local}))
    ensures r.Ok? && Handled(n, parentIsWsMath) ==> r.value.unimplemented == {}
    ensures IsMl(n, "define") || IsMl(n, "globalDefine") ==>
              var d := ParseDefinition(n);
              (d.Ok? ==> r == Ok(Walk(d.value, {}))) && (d.Fail? ==> r == Fail(d.reason))
    ensures IsMl(n, "eval") ==>
              var e := ParseEval(n);
              (e.Ok? ==> r == Ok(Walk(e.value, {}))) && (e.Fail? ==> r == Fail(e.reason))
    ensures parentIsWsMath && IsMl(n, "apply") ==>
              var a := ParseApply(n);
              (a.Ok? ==> r == Ok(Walk(["public double Function { get { return " + a.value + "; } }"], {})))
              && (a.Fail? ==> r == Fail(a.reason))
  {
    if n.ns != ML then Ok(Empty)
    else if IsMl(n, "define") then
      var lines :- ParseDefinition(n);
      Ok(Walk(lines, {}))
    else if IsMl(n, "eval") then
      var lines :- ParseEval(n);
      Ok(Walk(lines, {}))
    else if IsMl(n, "globalDefine") then
      var lines :- ParseDefinition(n);
      Ok(Walk(lines, {}))
    else if parentIsWsMath && IsMl(n, "apply") then
      var body :- ParseApply(n);
      Ok(Walk(["public double Function { get { return " + body + "; } }"], {}))
    else
      Ok(Walk([], {n.local}))
  }

  /** Visit `n`, then its children. */
  function VisitNode(n: Node, parentIsWsMath: bool): (r: Result<Walk>)
    decreases n, 1, 0
  {
    var own :- Dispatch(n, parentIsWsMath);
    var below :- VisitChildren(n, 0);
    Ok(Then(own, below))
  }

  /** Visit the children of `p` from index `i` on, in document order. */
  function VisitChildren(p: Node, i: nat): (r: Result<Walk>)
    requires i <= |p.children|
    decreases p, 0, |p.children| - i
  {
    if i == |p.children| then Ok(Empty)
    else
      var first :- VisitNode(p.children[i], IsWsMath(p));
      var rest :- VisitChildren(p, i + 1);
      Ok(Then(first, rest))
  }

  /** The lines `Parse` writes before the members. */
  function Header(className: string): seq<string> {
    ["using System;",
     "using System.Collections.Generic;",
     "using System.Linq;",
     "using System.Text;",
     "using System.Threading.Tasks;",
     "using MathNet.Numerics.LinearAlgebra;",
     "",
     "namespace Mathcad2Cs",
     "{",
     "    public class " + className,
     "    {"]
  }

  /** The lines `Parse` writes after the members. */
  const Footer: seq<string> := ["    }", "}"]

  /** `Parse`: the compilation unit for a worksheet whose root element is
      `root`, in a class named `className`. The root itself is not visited;
      its children are. */
  function Translate(className: string, root: Node): (r: Result<Walk>)
    ensures r.Ok? ==> |r.value.lines| >= |Header(className)| + |Footer|
    ensures r.Ok? ==> r.value.lines[..|Header(className)|] == Header(className)
    ensures r.Ok? ==> r.value.lines[|r.value.lines| - |Footer|..] == Footer
  {
    var body :- VisitChildren(root, 0);
    Ok(Walk(Header(className) + body.lines + Footer, body.unimplemented))
  }
}

=== FILE: walker_properties.dfy ===
/** The walk of xmcd2cs/Parser.cs:45-80 as a fold over the pre-order list of
    the elements it meets: what it appends, what it records as "to
    implement", and how a failure anywhere aborts it.
 */
module WalkerProperties {
  import opened Results
  import opened Xml
  import opened Walker

  /** An element met by the walk, with the flag "my parent is `ws:math`". */
  type Visit = (Node, bool)

  /** The elements a walk of `n` meets, `n` first, then each child's subtree
      in document order. */
  function Entries(n: Node, parentIsWsMath: bool): (es: seq<Visit>)
    ensures |es| > 0 && es[0] == (n, parentIsWsMath)
    decreases n, 1, 0
  {
    [(n, parentIsWsMath)] + ChildEntries(n, 0)
  }

  /** The elements met in the subtrees of the children of `p` from index `i`
      on. */
  function ChildEntries(p: Node, i: nat): seq<Visit>
    requires i <= |p.children|
    decreases p, 0, |p.children| - i
  {
    if i == |p.children| then []
    else Entries(p.children[i], IsWsMath(p)) + ChildEntries(p, i + 1)
  }

  /** Dispatching each element of a list in turn, stopping at the first
      failure. */
  function DispatchAll(es: seq<Visit>): Result<Walk> {
    if |es| == 0 then Ok(Empty)
    else
      var first :- Dispatch(es[0].0, es[0].1);
      var rest :- DispatchAll(es[1..]);
      Ok(Then(first, rest))
  }

  /** Dispatching two lists one after the other is dispatching their
      concatenation. */
  lemma {:induction false} DispatchAllConcat(xs: seq<Visit>, ys: seq<Visit>)
    ensures DispatchAll(xs + ys) ==
              match DispatchAll(xs)
              case Fail(e) => Fail(e)
              case Ok(a) =>
                match DispatchAll(ys)
                case Fail(e) => Fail(e)
                case Ok(b) => Ok(Then(a, b))
    decreases |xs|
  {
    if |xs| == 0 {
      assert xs + ys == ys;
      if DispatchAll(ys).Ok? {
        var b := DispatchAll(ys).value;
        assert Then(Empty, b) == b by {
          assert [] + b.lines == b.lines;
        }
      }
    } else {
      assert (xs + ys)[0] == xs[0];
      assert (xs + ys)[1..] == xs[1..] + ys;
      DispatchAllConcat(xs[1..], ys);
      var first := Dispatch(xs[0].0, xs[0].1);
      if first.Ok? && DispatchAll(xs[1..]).Ok? && DispatchAll(ys).Ok? {
        var a, m, b := first.value, DispatchAll(xs[1..]).value, DispatchAll(ys).value;
        assert Then(a, Then(m, b)) == Then(Then(a, m), b) by {
          assert a.lines + (m.lines + b.lines) == (a.lines + m.lines) + b.lines;
        }
      }
    }
  }

  /** The walk of a subtree is the dispatch of its elements in pre-order. */
  lemma {:induction false} VisitIsFold(n: Node, parentIsWsMath: bool)
    ensures VisitNode(n, parentIsWsMath) == DispatchAll(Entries(n, parentIsWsMath))
    decreases n, 1, 0
  {
    ChildrenAreFold(n, 0);
    var es := Entries(n, parentIsWsMath);
    assert es[1..] == ChildEntries(n, 0);
  }

  /** The walk of the children of `p` from index `i` on is the dispatch of
      their elements in pre-order. */
  lemma {:induction false} ChildrenAreFold(p: Node, i: nat)
    requires i <= |p.children|
    ensures VisitChildren(p, i) == DispatchAll(ChildEntries(p, i))
    decreases p, 0, |p.children| - i
  {
    if i < |p.children| {
      VisitIsFold(p.children[i], IsWsMath(p));
      ChildrenAreFold(p, i + 1);
      DispatchAllConcat(Entries(p.children[i], IsWsMath(p)), ChildEntries(p, i + 1));
    }
  }

  /** A dispatch of a list succeeds exactly when every element's dispatch
      does. */
  lemma {:induction false} DispatchAllSucceeds(es: seq<Visit>)
    ensures DispatchAll(es).Ok? <==> forall k :: 0 <= k < |es| ==> Dispatch(es[k].0, es[k].1).Ok?
    decreases |es|
  {
    if |es| > 0 {
      DispatchAllSucceeds(es[1..]);
      assert forall k :: 1 <= k < |es| ==> es[k] == es[1..][k - 1];
    }
  }

  /** A failing dispatch aborts the whole walk with its own reason when no
      earlier element failed. */
  lemma {:induction false} FirstFailureWins(es: seq<Visit>, k: nat)
    requires k < |es| && Dispatch(es[k].0, es[k].1).Fail?
    requires forall j :: 0 <= j < k ==> Dispatch(es[j].0, es[j].1).Ok?
    ensures DispatchAll(es) == Fail(Dispatch(es[k].0, es[k].1).reason)
    decreases k
  {
    if k > 0 {
      FirstFailureWins(es[1..], k - 1);
    }
  }

  /** The element at position `k` is an unhandled math node. */
  predicate Unhandled(es: seq<Visit>, k: int)
    requires 0 <= k < |es|
  {
    es[k].0.ns == ML && !Handled(es[k].0, es[k].1)
  }

  /** The names recorded as "to implement" are exactly the local names of
      the unhandled math nodes met. */
  lemma {:induction false} UnimplementedAreUnhandled(es: seq<Visit>)
    requires DispatchAll(es).Ok?
    ensures forall x :: x in DispatchAll(es).value.unimplemented <==>
              exists k :: 0 <= k < |es| && Unhandled(es, k) && es[k].0.local == x
    decreases |es|
  {
    if |es| > 0 {
      UnimplementedAreUnhandled(es[1..]);
      var w := DispatchAll(es).value;
      var own := Dispatch(es[0].0, es[0].1).value;
      var rest := DispatchAll(es[1..]).value;
      assert w.unimplemented == own.unimplemented + rest.unimplemented;
      forall x | x in w.unimplemented
        ensures exists k :: 0 <= k < |es| && Unhandled(es, k) && es[k].0.local == x
      {
        if x in own.unimplemented {
          assert Unhandled(es, 0) && es[0].0.local == x;
        } else {
          var k :| 0 <= k < |es[1..]| && Unhandled(es[1..], k) && es[1..][k].0.local == x;
          assert Unhandled(es, k + 1) && es[k + 1].0.local == x;
        }
      }
      forall x, k | 0 <= k < |es| && Unhandled(es, k) && es[k].0.local == x
        ensures x in w.unimplemented
      {
        if k > 0 {
          assert Unhandled(es[1..], k - 1) && es[1..][k - 1].0.local == x;
        }
      }
    }
  }

  /** `Parse` succeeds exactly when every element below the root is
      dispatched without failure, and then writes the header, the lines of
      those elements in document order, and the footer. */
  lemma TranslateIsFold(className: string, root: Node)
    ensures var es := ChildEntries(root, 0);
            (Translate(className, root).Ok? <==>
               forall k :: 0 <= k < |es| ==> Dispatch(es[k].0, es[k].1).Ok?)
            && (Translate(className, root).Ok? ==>
                  DispatchAll(es).Ok? &&
                  Translate(className, root).value.lines
                    == Header(className) + DispatchAll(es).value.lines + Footer)
  {
    ChildrenAreFold(root, 0);
    DispatchAllSucceeds(ChildEntries(root, 0));
  }
}

=== FILE: xml.dfy ===
/** The worksheet's XML tree as the translator sees it.

    A node carries its qualified name (namespace URI and local name), its
    attributes without a namespace (the only ones the translator reads), its
    child elements in document order, and its string value (`XElement.Value`).
    The tree is immutable; the "is my parent `ws:math`" test of the walker is
    a flag handed down by the walk rather than a parent pointer.
 */
module Xml {
  import opened Results

  /** Namespace of the math content nodes (`ml` in the source). */
  const ML: string := "http://schemas.mathsoft.com/math30"
  /** Namespace of the worksheet structure nodes (`ws` in the source). */
  const WS: string := "http://schemas.mathsoft.com/worksheet30"
  /** Namespace of the unit nodes (`u` in the source). */
  const UNITS: string := "http://schemas.mathsoft.com/units10"

  datatype Node = Node(
    ns: string,
    local: string,
    attrs: map<string, string>,
    children: seq<Node>,
    text: string)

  /** The qualified name of `n` is `{ns}local`. */
  predicate Named(n: Node, ns: string, local: string) {
    n.ns == ns && n.local == local
  }

  /** The qualified name of `n` is `ml + local`. */
  predicate IsMl(n: Node, local: string) {
    Named(n, ML, local)
  }

  /** `n` is the worksheet's math-content container `ws:math`. */
  predicate IsWsMath(n: Node) {
    Named(n, WS, "math")
  }

  /** `n.Attribute(name)?.Value`. */
  function Attribute(n: Node, name: string): Option<string> {
    if name in n.attrs then Some(n.attrs[name]) else None
  }

  /** `n.Element(name)`: the first child with the given qualified name. */
  function FirstChildNamed(n: Node, ns: string, local: string): (r: Option<Node>)
    ensures r.Some? ==> exists j :: 0 <= j < |n.children| && n.children[j] == r.value
                          && Named(n.children[j], ns, local)
                          && forall k :: 0 <= k < j ==> !Named(n.children[k], ns, local)
    ensures r.None? ==> forall i :: 0 <= i < |n.children| ==> !Named(n.children[i], ns, local)
  {
    FirstNamedFrom(n.children, ns, local, 0)
  }

  function FirstNamedFrom(nodes: seq<Node>, ns: string, local: string, i: nat): (r: Option<Node>)
    requires i <= |nodes|
    ensures r.Some? ==> exists j :: i <= j < |nodes| && nodes[j] == r.value && Named(nodes[j], ns, local)
                          && forall k :: i <= k < j ==> !Named(nodes[k], ns, local)
    ensures r.None? ==> forall k :: i <= k < |nodes| ==> !Named(nodes[k], ns, local)
    decreases |nodes| - i
  {
    if i == |nodes| then None
    else if Named(nodes[i], ns, local) then Some(nodes[i])
    else FirstNamedFrom(nodes, ns, local, i + 1)
  }

  /** `n.Descendants()`: every element below `n`, in document order. */
  function Descendants(n: Node): seq<Node>
    decreases n, 1, 0
  {
    DescendantsFrom(n, 0)
  }

  /** The descendants contributed by the children of `n` from index `i` on. */
  function DescendantsFrom(n: Node, i: nat): seq<Node>
    requires i <= |n.children|
    decreases n, 0, |n.children| - i
  {
    if i == |n.children| then []
    else [n.children[i]] + Descendants(n.children[i]) + DescendantsFrom(n, i + 1)
  }

  /** `n.Descendants(ml + "imag").ToList().Count > 0`. */
  predicate HasImag(n: Node) {
    exists d :: d in Descendants(n) && IsMl(d, "imag")
  }

  /** An element lies below `n`'s children from index `i` on exactly when it
      is one of those children or lies below one of them. */
  lemma {:induction false} DescendantsFromMembers(n: Node, i: nat, d: Node)
    requires i <= |n.children|
    ensures d in DescendantsFrom(n, i) <==>
              exists k :: i <= k < |n.children| && (d == n.children[k] || d in Descendants(n.children[k]))
    decreases |n.children| - i
  {
    if i < |n.children| {
      DescendantsFromMembers(n, i + 1, d);
      assert DescendantsFrom(n, i) == [n.children[i]] + Descendants(n.children[i]) + DescendantsFrom(n, i + 1);
    }
  }

  /** `n` has an imaginary literal below it exactly when one of its children
      is one or has one below it. */
  lemma HasImagByChildren(n: Node)
    ensures HasImag(n) <==>
              exists k :: 0 <= k < |n.children| && (IsMl(n.children[k], "imag") || HasImag(n.children[k]))
  {
    if HasImag(n) {
      var d :| d in Descendants(n) && IsMl(d, "imag");
      DescendantsFromMembers(n, 0, d);
      var k :| 0 <= k < |n.children| && (d == n.children[k] || d in Descendants(n.children[k]));
      assert IsMl(n.children[k], "imag") || HasImag(n.children[k]);
    }
    if exists k :: 0 <= k < |n.children| && (IsMl(n.children[k], "imag") || HasImag(n.children[k])) {
      var k :| 0 <= k < |n.children| && (IsMl(n.children[k], "imag") || HasImag(n.children[k]));
      var d := if IsMl(n.children[k], "imag") then n.children[k]
               else var e :| e in Descendants(n.children[k]) && IsMl(e, "imag"); e;
      DescendantsFromMembers(n, 0, d);
      assert d in Descendants(n);
    }
  }
}
